=== FILE: README.md ===
# Terragrunt `mv-all`, stack discovery and the Terraform version gate, in Dafny

This project models three pieces of terragrunt:

- **Relocation of a stack** (`MvAll` in `configstack/mv.go`) runs these stages in order:
  - discover the modules under the working directory;
  - pull each module's remote state into a temporary state file (`terragrunt-mv-tmp.tfstate`);
  - register a deferred cleanup of those files;
  - translate the options to the destination, a sibling directory named by `MvDestination`;
  - copy the tree there; the copy is given the name of the relocation manifest (`.terragrunt-mv-manifest`);
  - discover the stack again in the destination;
  - keep only the modules whose temporary state file arrived, and push their state;
  - remove the temporary state files of both stacks.

  The first error ends the run and is returned. The deferred cleanup runs last, and its error is dropped.
- **Stack discovery** (`FindStackInSubfolders`). Every directory under the working directory that directly holds the configuration file becomes one module. A missing root or a directory that cannot be listed is an error.
- **The Terraform version gate**. The version is read out of the `terraform --version` banner ("Terraform v0.9.4-dev", "Terraform 0.9.3 <hash>", …) and checked against a constraint such as `>= v0.9.3`. Versions compare component by component, major first.

The modules are:

| module | file | contents |
|---|---|---|
| `Wrappers` | `wrappers.dfy` | `Option`, `Result`, `Outcome` |
| `Strings` | `strings.dfy` | prefixes, occurrences, Go's `strings.Replace(s, old, new, 1)` |
| `Paths` | `paths.dfy` | `filepath.Dir`, `Base` and `Join` on clean absolute paths |
| `Sorting` | `sorting.dfy` | lexicographic order, and a sorted listing of a set of strings |
| `Files` | `files.dfy` | the file system as sets of files, directories, unlistable directories and unremovable files |
| `Options` | `options.dfy` | the option fields relocation reads or rewrites, and `Clone` |
| `ConfigStack` | `stack.dfy` | modules, stacks, discovery |
| `Mv` | `mv.dfy` | path translation, the destination filter, cleanup, the pipeline |
| `VersionCheck` | `version.dfy` | banner parsing, version precedence, constraints |

`MvAll` returns a `Run`:

- the error it returns, if any;
- the file system it leaves;
- a trace with one event per stage that ran. The pipeline lemmas tie each event to the collaborator call that was made: its arguments, the file system it was given, and the outcome and file system it returned.

It also returns the deferred cleanup when one was registered. The state pull, the state push and the tree copy belong to code outside this model, so they are parameters (`Collaborators`): functions from their arguments and the file system to the file system they leave and the error they report. Every property of `MvAll` therefore holds for every behaviour of those operations.

## Model

| member | source | states |
|---|---|---|
| Mv.NewOptionsWithReplacedPath | configstack/mv.go:78-100 | The target working directory is the directory of the rewritten config path, and every other field is copied. The config path is unchanged when it does not contain the old working directory. When it starts with the old working directory, that prefix is replaced by the sibling destination. |
| Mv.NewConfigPathReplacesFirst | configstack/mv.go:89 | When the config path contains the old working directory anywhere, the new config path is the old one with the FIRST occurrence replaced by the destination and everything before and after that occurrence kept. |
| Mv.DestinationIsSibling | configstack/mv.go:82-84 | For a clean absolute working directory ("/" included) and a single-element destination, the new working directory is absolute, has the same parent and has `MvDestination` as its last element. |
| Mv.ConfigInWorkingDirMoves | configstack/mv.go:89-91 | For a working directory other than "/": a config file directly in the working directory moves to the same file name in the destination, and the target working directory is the destination. Replacing the destination by the origin gives back the original config path. |
| Mv.ConfigAtRootMerges | configstack/mv.go:84-91 | For working directory "/", the config file "/f" and destination "d" give the config path "/df" and target working directory "/": the destination runs into the file name, as `strings.Replace` and `filepath.Dir` make it. |
| Strings.ReplaceFirst | configstack/mv.go:89 | Text without the pattern is unchanged. A leading pattern is replaced by the replacement. Otherwise the first occurrence, and only it, is replaced. |
| Strings.ReplacePrefixRoundTrip | configstack/mv.go:89 | Replacing a leading pattern and then replacing the replacement back restores the text. |
| Mv.FilterMoved | configstack/mv.go:45-54 | The kept modules are a subsequence of the target stack's modules. Each kept module's temporary state file exists. Every target module whose temporary state file exists is kept. |
| Mv.FilterMovedCounts | configstack/mv.go:46-54 | Every occurrence of a module whose temporary state file exists is kept, and no occurrence of any other module. |
| Mv.FilterMovedIdempotent | configstack/mv.go:46-54 | Filtering the filtered modules again changes nothing. |
| Mv.CleanTmpFiles | configstack/mv.go:102-112 | Cleanup changes only the set of files, and only removes from it. |
| Mv.CleanPassesIffNoneStuck | configstack/mv.go:102-112 | Cleanup returns no error exactly when no module's state file both exists and cannot be removed. It then has removed exactly the modules' state files. |
| Mv.CleanStopsAtFirstStuck | configstack/mv.go:103-108 | Cleanup fails with the removal error of the first module whose file cannot be removed, having removed the files of the modules before it and nothing else. |
| Mv.CleanTwice | configstack/mv.go:102-112 | A second cleanup after a successful one passes and changes nothing, because absent files are skipped. |
| Mv.CleanNothing | configstack/mv.go:104-105 | A stack with no temporary state file left is cleaned without error and without change. |
| Mv.CleanBothStaged | configstack/mv.go:65-70 | The two cleanups are the last two stages; a failing origin cleanup ends the run before the target cleanup. |
| Mv.CleanBothPass | configstack/mv.go:65-70 | The cleanups only remove files; when both pass, neither stack has a temporary state file left. |
| Mv.Transfer | configstack/mv.go:45-70 | Filter, push and both cleanups over the target stack. It carries no contract of its own; its properties are `Mv.TransferStaged`, `Mv.TransferFirst` and `Mv.TransferPass`, which tie the push to its real arguments and file system. |
| Mv.TransferStaged | configstack/mv.go:45-70 | Filter, push and the two cleanups run in that order, and a failing push or cleanup ends the run with its error. |
| Mv.TransferFirst | configstack/mv.go:45-58 | The filter looks at the file system the transfer is given and keeps exactly the target modules whose temporary state file exists there. The push is called with those modules, the target options, the temporary file name and that file system, and its event records that call's outcome. A failing push ends the run with its error and the file system it left. |
| Mv.TransferPass | configstack/mv.go:56-70 | A transfer that returns no error had a passing push call. Its file system is what the two cleanups leave when run on the file system the push left, and neither the origin stack nor the pushed modules has a temporary state file left. |
| Mv.DiscoverTargetStaged | configstack/mv.go:40-70 | A failing discovery of the target ends the run with its error; otherwise filter, push and cleanup follow. |
| Mv.DiscoverTargetFirst | configstack/mv.go:40-58 | The target stack is discovered in the target's working directory on the file system given, and a failing discovery leaves that file system unchanged. Otherwise the filter is given the stack discovered there and the same file system, and the push event records the outcome of the push called with the kept modules on it. |
| Mv.DiscoverTargetPass | configstack/mv.go:40-70 | When every later stage passes, neither the origin stack nor the pushed modules has a temporary state file left. |
| Mv.Relocate | configstack/mv.go:36-70 | The copy to the target working directory and everything after it. It carries no contract of its own; its properties are `Mv.RelocateStaged`, `Mv.RelocateFirst` and `Mv.RelocatePass`, which tie the copy, the discovery and the push to their real arguments and file systems. |
| Mv.RelocateStaged | configstack/mv.go:36-70 | A failing copy ends the run with its error; otherwise discovery, filter, push and cleanup follow. |
| Mv.RelocateFirst | configstack/mv.go:36-58 | The copy is called from the old working directory to the target's with the manifest's name, on the file system given, and its event records that call's outcome. A failing copy ends the run with its error and the file system it left. Otherwise the target stack is discovered in the target's directory on the file system the copy left, the filter looks at that file system, and the push is called with what the filter kept. |
| Mv.RelocatePass | configstack/mv.go:36-70 | A relocation that returns no error leaves no temporary state file in the origin stack or in the pushed modules. |
| Mv.PullAndRelocateStaged | configstack/mv.go:25-70 | A failing pull ends the run with its error; otherwise the copy and the rest follow. |
| Mv.PullAndRelocateFirst | configstack/mv.go:25-29 | The pull is of the origin stack into the temporary state file. The deferred cleanup of the origin is registered exactly when the pull passes. |
| Mv.MvAll | configstack/mv.go:19-75 | The whole relocation run: outcome, file system, event trace and the deferred origin cleanup. It carries no contract of its own; what a run does is stated by the `Mv.MvAll…` lemmas below (`MvAllStaged`, `MvAllFirst`, `MvAllDiscoveryFails`, `MvAllPullFails`, `MvAllAfterPull`, `MvAllPushesMovedModules`, `MvAllRunsEveryStage`, `MvAllCleansOrigin`, `MvAllCleansMoved`, `MvAllDeferredFindsNothing`). |
| Mv.MvAllStaged | configstack/mv.go:19-75 | The run follows the schedule (discover, pull, copy, discover, filter, push, clean, clean) from the start. Every stage but the last one that ran passed. The run returns the last stage's outcome, and returns no error only when every stage ran. |
| Mv.MvAllFirst | configstack/mv.go:20-29 | The run starts by discovering the working directory. The deferred cleanup is registered exactly when the pull ran and passed, and it cleans the pulled stack's temporary files. |
| Mv.MvAllDiscoveryFails | configstack/mv.go:20-23 | When the origin stack cannot be discovered, that error is returned, the file system is untouched and nothing else runs. |
| Mv.MvAllPullFails | configstack/mv.go:25-27 | When the pull fails, its error is returned, the file system is as the pull left it, and no cleanup is registered. |
| Mv.MvAllAfterPull | configstack/mv.go:25-36 | After a successful pull, the run is the discovery, the pull and the relocation on the translated options. The deferred cleanup runs on the file system the relocation left. |
| Mv.MvAllPushesMovedModules | configstack/mv.go:31-58 | After a successful pull, the copy is called from the working directory to the translated one with the manifest's name, on the file system the pull left. The target stack is discovered there on the file system the copy left, the filter looks at that file system, and the push is called with exactly the filtered target modules and the target options. |
| Mv.PassMeansPullSucceeds | configstack/mv.go:20-27 | A run that returns no error discovered the origin stack and pulled its state. |
| Mv.MvAllRunsEveryStage | configstack/mv.go:19-75 | A run that returns no error ran every stage of the schedule, in order, and every stage passed. |
| Mv.MvAllCleansOrigin | configstack/mv.go:65-67 | A run that returns no error leaves no temporary state file in any module of the origin stack. |
| Mv.MvAllCleansMoved | configstack/mv.go:68-70 | A run that returns no error leaves no temporary state file in any module the push was given. |
| Mv.MvAllDeferredFindsNothing | configstack/mv.go:29 | In a run that returns no error, the deferred cleanup of the origin finds nothing to remove and passes. |
| ConfigStack.FindStackInSubfolders | configstack/stack_test.go:16-55 | Discovery succeeds exactly when the root exists and no directory under it is unlistable. A missing root gives a not-exist error for the root. Otherwise the error names an unlistable directory under the root. |
| ConfigStack.StackOf | configstack/stack_test.go:41-53 | The stack has one module per configuration directory, each exactly once. |
| ConfigStack.DiscoveryExact | configstack/stack_test.go:38-53 | A successful discovery has one module per directory under the root that holds the configuration file, and no other module. |
| ConfigStack.DiscoveryFindsEveryConfigFile | configstack/stack_test.go:41-53 | Every configuration file under the root is some module's path joined with the configuration file name. |
| ConfigStack.DiscoveredModulesAreConfigDirs | configstack/stack_test.go:43-47 | Every module is a directory under the root that holds a configuration file. Stripping the root from its path and putting the root back gives the path again. |
| ConfigStack.StageTree | configstack/stack_test.go:19-53 | The test's tree (data-stores/redis, data-stores/postgres, ecs-cluster, kms-master-key, vpc) gives exactly those five modules. |
| ConfigStack.TwoLevelTree | configstack/stack_test.go:19-25 | Two modules inside a directory without a configuration file, plus three modules directly under the root, give exactly those five modules. |
| ConfigStack.FiveModuleTree | configstack/stack_test.go:19-25 | Five configuration directories under the root give exactly those five modules. |
| ConfigStack.SingleModuleTree | configstack/stack_test.go:20-24 | A tree with one configuration directory gives a stack of exactly that module. |
| ConfigStack.NestedModuleFound | configstack/stack_test.go:20-21 | A module two levels down, inside a directory without a configuration file, is found, and its parent is not a module. |
| Paths.DirBaseJoin | configstack/mv.go:84 | Every clean absolute path other than "/" is its directory joined with its last element. |
| VersionCheck.ParseTerraformVersion | cli/version_check_test.go:35-63 | Parsing succeeds exactly when the banner opens with "Terraform " followed by a version token. The token runs to the end of the text or to a non-digit. Its text is kept as the version's original and reads back as the same version. Every failure carries the whole text. |
| VersionCheck.ScanVersionText | cli/version_check_test.go:79-88 | A version's text, followed by anything that does not continue with a digit, reads back as that version, with the text as its original. |
| VersionCheck.ScanVersionRest | cli/version_check_test.go:45-58 | The token a scan consumed, followed by any text that does not continue with a digit, scans to the same version. |
| VersionCheck.ParseBanner | cli/version_check_test.go:35-58 | "Terraform [v]X.Y.Z" followed by text that does not continue with a digit reads as version X.Y.Z, with "[v]X.Y.Z" as its original. |
| VersionCheck.ParseWithoutV | cli/version_check_test.go:35-43 | The banner reads as the same release with or without the leading `v`. |
| VersionCheck.ParseIgnoresSuffix | cli/version_check_test.go:45-58 | A commit hash or `-dev` suffix after the token does not change the result. |
| VersionCheck.ParseTestBanners | cli/version_check_test.go:35-58 | The five banners of the tests read as v0.9.3, 0.9.3 and v0.9.4 (three times). |
| VersionCheck.ParseInvalidSyntax | cli/version_check_test.go:60-63 | "invalid-syntax" is rejected with the syntax error carrying that text. |
| VersionCheck.Compare | cli/version_check_test.go:10-33 | The comparison is -1, 0 or 1. That it orders versions lexicographically by (major, minor, patch) is `VersionCheck.CompareIsLexicographic`. |
| VersionCheck.CompareIsLexicographic | cli/version_check_test.go:10-33 | The comparison is the lexicographic order of (major, minor, patch), in each of its three outcomes. |
| VersionCheck.CompareAntisymmetric | cli/version_check_test.go:10-33 | Swapping the versions negates the comparison. |
| VersionCheck.CompareTransitive | cli/version_check_test.go:10-33 | The comparison is transitive. |
| VersionCheck.ParseConstraint | cli/version_check_test.go:65-71 | Every failure carries the constraint text. A parsed operand's original text reads back as exactly that version. |
| VersionCheck.ConstraintRoundTrip | cli/version_check_test.go:12-32 | Any operator, a space and a version text read back as that operator and version. |
| VersionCheck.CheckTerraformVersionMeetsConstraint | cli/version_check_test.go:65-77 | The check passes exactly when the constraint reads and the version satisfies it. Otherwise it returns the constraint's syntax error, or an error naming the version and the constraint. |
| VersionCheck.CheckPassesIffSatisfied | cli/version_check_test.go:71-76 | Once the constraint reads, the check passes exactly when the version satisfies it, and otherwise names both. |
| VersionCheck.CheckAgainst | cli/version_check_test.go:10-33 | Against a constraint that reads as `>= w`, the check passes exactly when the version is not lexicographically below w. |
| VersionCheck.CheckAtLeast | cli/version_check_test.go:10-33 | Against the text `>= [v]X.Y.Z`, the check passes exactly when (major, minor, patch) is not lexicographically below (X, Y, Z). |
| VersionCheck.AtLeastIsLexicographic | cli/version_check_test.go:15-32 | `>= w` holds exactly when the version's components are not below w's. |
| VersionCheck.AtLeastUpwardClosed | cli/version_check_test.go:15-23 | A constraint `>= w` that a version meets is met by every later version. |
| VersionCheck.CheckTestConstraints | cli/version_check_test.go:10-33 | `>= v0.9.3` is met by 0.9.3, 0.9.4 and 1.0.0, and not by 0.9.2 or 0.8.8. |

## Left out

- Printing: the two `pretty.Print` calls in `newOptionsWithReplacedPath` (mv.go:80, 93) are output only.
- Mv.ConfigInWorkingDirMoves: does not cover working directory "/". There the translation does not move the config file into the destination: the config path "/f" with destination "d" becomes "/df", and the target working directory stays "/". The model agrees with Go's `strings.Replace` and `filepath.Dir` here, and `Mv.ConfigAtRootMerges` states it.
- Mv.NewOptionsWithReplacedPath: the `filepath.Abs` error return (mv.go:84-87), and so `MvAll`'s return at mv.go:31-34, are not modelled. Working directories are taken to be absolute already, and `Abs` fails only when it cannot read the process's current directory, which this model has no notion of.
- Mv.NewOptionsWithReplacedPath: `Join`, `Dir` and `Abs` do not perform `filepath.Clean`. `MvDestination` is assumed to be a single path element: not empty, without "/", not "." or "..". The translation lemmas require this. For other destinations the model differs from Go; for example, an empty destination gives "/a/" where Go gives "/a".
- Mv.MvAll: the copy's fourth argument (`false`, mv.go:36) and what the manifest contains are not modelled. The copy collaborator is given the source, the destination and the manifest's name, and whatever it does with them is its own behaviour.
- Mv.MvAll: the commented-out `StateRm` (mv.go:59-63) and `os.RemoveAll` (mv.go:72) are not part of the program's behaviour and are not modelled.
- Mv.MvAll: the state pull, state push and tree copy are parameters. Their remote-state behaviour, the Terraform processes they run and their concurrency are not modelled.
- ConfigStack.FindStackInSubfolders: `configstack/stack.go` is not part of this model. Discovery matches configuration files by name only ("terraform.tfvars"). Configuration parsing, dependencies between modules and include files are not modelled.
- ConfigStack.FindStackInSubfolders: the order of the modules is a choice of this model: lexicographic by path. The walk's real order is not shown. Order matters to `CleanTmpFiles`, which stops at the first unremovable file, so after a failed cleanup the set of files left follows this choice.
- ConfigStack.FindStackInSubfolders: a root with zero configuration files is modelled as an empty stack, not an error (`ConfigStack.EmptyTreeGivesEmptyStack`). `configstack/stack.go` is not part of this model, and no shown line decides this case. A program that reports an error when no modules are found differs from this model there, and so does `Mv.MvAll` on an origin with no modules.
- ConfigStack.FindStackInSubfolders: when several directories cannot be listed, the one reported is the least in lexicographic order.
- Files.FileExists: true for regular files only. `util.FileExists` is `os.Stat`-based and is also true for a directory of that name; a directory named like the temporary state file is not modelled.
- Mv.CleanTmpFiles: the stack trace that `errors.WithStackTrace` attaches is not modelled; the error records the path that could not be removed.
- VersionCheck.ParseTerraformVersion: `cli/version_check.go` is not part of this model. The parser is reconstructed from its tests: "Terraform ", then a version token, then text that does not continue with a digit.
- VersionCheck.Version: no pre-release or build metadata, and exactly three numeric segments. A `-dev` suffix is ignored rather than kept as a pre-release. `version.NewVersion`'s one-, two- and four-segment forms are not modelled. Segments are unbounded naturals: go-version reads each segment as a signed 64-bit integer and rejects a segment above 9223372036854775807, while this model accepts it, so `ParseTerraformVersion("Terraform v100000000000000000000.0.0")` succeeds here and fails in the program. The same holds for constraint operands in `VersionCheck.ParseConstraint`.
- VersionCheck.ParseConstraint: one constraint with one of the operators `=`, `!=`, `>`, `<`, `>=`, `<=`, or none (meaning `=`). `~>`, comma-separated lists, operands with fewer than three segments such as `>= 0.9`, pre-release operands, and tabs or other white space besides spaces are all rejected as malformed, whereas `version.NewConstraint` accepts them.

=== FILE: files.dfy ===
/** The part of the filesystem the relocation pipeline touches, as sets of
    paths, and the errors its operations report. */
module Files {
  import opened Paths

  /** Errors of the stack and relocation code. `External` is whatever a
      collaborator outside the model (state pull or push, tree copy) reports. */
  datatype Error =
    | NotExist(path: Path)
    | PermissionDenied(path: Path)
    | RemoveFailed(path: Path)
    | External(cause: string)

  /** `files`: regular files present; `dirs`: directories present;
      `denied`: directories whose listing fails; `pinned`: files whose
      removal fails. */
  datatype FileSystem = FileSystem(
    files: set<Path>,
    dirs: set<Path>,
    denied: set<Path>,
    pinned: set<Path>)

  /** `util.FileExists` for a regular file. */
  predicate FileExists(fs: FileSystem, p: Path) {
    p in fs.files
  }
}

=== FILE: mv.dfy ===
/** Relocation of a stack (`mv-all`): the path translation from the old
    working directory to its sibling, the filter that keeps the target
    modules whose temporary state file arrived, the cleanup of temporary
    state files, and the pipeline that strings them together. */
module Mv {
  import opened Wrappers
  import opened Strings
  import opened Paths
  import opened Files
  import opened Options
  import opened ConfigStack

  /** Name of the temporary state file pulled into, and pushed from, every module. */
  const TmpStatefileName: string := "terragrunt-mv-tmp.tfstate"

  /** Name of the relocation manifest; the tree copy is given this name. */
  const MoveManifestName: string := ".terragrunt-mv-manifest"

  // ---------------------------------------------------------------------
  // Path translation

  /** The destination working directory: `MvDestination` placed beside the
      old working directory. */
  function NewWorkingDir(opts: TerragruntOptions): Path {
    Join(Dir(opts.workingDir), opts.mvDestination)
  }

  /** `newOptionsWithReplacedPath`: the first occurrence of the old working
      directory in the config path is replaced by the new one, and the
      options are cloned for that path, so the new working directory is the
      directory holding the rewritten config path. */
  function NewOptionsWithReplacedPath(opts: TerragruntOptions): (r: TerragruntOptions)
    ensures r.workingDir == Dir(r.terragruntConfigPath)
    ensures r.downloadDir == opts.downloadDir && r.mvDestination == opts.mvDestination
    ensures !Contains(opts.terragruntConfigPath, opts.workingDir) ==>
              r.terragruntConfigPath == opts.terragruntConfigPath
    ensures HasPrefix(opts.terragruntConfigPath, opts.workingDir) ==>
              r.terragruntConfigPath == NewWorkingDir(opts) + opts.terragruntConfigPath[|opts.workingDir|..]
  {
    var newPath := ReplaceFirst(opts.terragruntConfigPath, opts.workingDir, NewWorkingDir(opts));
    Clone(opts, newPath)
  }

  /** When the config path contains the old working directory, it is
      rewritten at the FIRST occurrence, `Index`, wherever in the path that
      occurrence lies, and what comes before and after it is kept. (Without
      an occurrence the path is unchanged: `NewOptionsWithReplacedPath`'s
      own contract.) */
  lemma NewConfigPathReplacesFirst(opts: TerragruntOptions)
    requires Contains(opts.terragruntConfigPath, opts.workingDir)
    ensures var p, wd := opts.terragruntConfigPath, opts.workingDir;
            var i := Index(p, wd);
            && 0 <= i && OccursAt(p, wd, i)
            && (forall j :: 0 <= j < i ==> !OccursAt(p, wd, j))
            && NewOptionsWithReplacedPath(opts).terragruntConfigPath == p[..i] + NewWorkingDir(opts) + p[i + |wd|..]
  {
    NewConfigPathIsReplaced(opts);
    ReplaceFirstAtIndex(opts.terragruntConfigPath, opts.workingDir, NewWorkingDir(opts));
  }

  /** The rewritten config path is `strings.Replace` of the old working
      directory by the destination, once. */
  lemma NewConfigPathIsReplaced(opts: TerragruntOptions)
    ensures NewOptionsWithReplacedPath(opts).terragruntConfigPath
            == ReplaceFirst(opts.terragruntConfigPath, opts.workingDir, NewWorkingDir(opts))
  {
  }

  /** The destination is a sibling of the source: same parent directory,
      last component `MvDestination`. */
  lemma DestinationIsSibling(opts: TerragruntOptions)
    requires IsAbs(opts.workingDir)
    requires IsComponent(opts.mvDestination)
    ensures IsAbs(NewWorkingDir(opts))
    ensures Dir(NewWorkingDir(opts)) == Dir(opts.workingDir)
    ensures Base(NewWorkingDir(opts)) == opts.mvDestination
  {
    if opts.workingDir != "/" {
      DirBaseJoin(opts.workingDir);
    }
    JoinParts(Dir(opts.workingDir), opts.mvDestination);
  }

  /** Replacing a leading directory `d` of `d/file` by `e` gives `e/file`. */
  lemma ReplaceDirPrefix(d: Path, e: Path, file: string)
    ensures ReplaceFirst(d + "/" + file, d, e) == e + "/" + file
  {
    assert HasPrefix(d + "/" + file, d);
    assert (d + "/" + file)[|d|..] == "/" + file;
  }

  /** When the config file sits directly in the working directory, the
      target options point at the same file name in the destination, and
      the target working directory is the destination itself. Replacing the
      destination by the origin again gives back the original config path. */
  lemma ConfigInWorkingDirMoves(opts: TerragruntOptions, file: string)
    requires IsAbs(opts.workingDir) && opts.workingDir != "/"
    requires IsComponent(opts.mvDestination) && IsComponent(file)
    requires opts.terragruntConfigPath == Join(opts.workingDir, file)
    ensures var t := NewOptionsWithReplacedPath(opts);
            && t.terragruntConfigPath == Join(NewWorkingDir(opts), file)
            && t.workingDir == NewWorkingDir(opts)
            && ReplaceFirst(t.terragruntConfigPath, NewWorkingDir(opts), opts.workingDir)
               == opts.terragruntConfigPath
  {
    var wd := opts.workingDir;
    var nwd := NewWorkingDir(opts);
    JoinParts(Dir(wd), opts.mvDestination);
    ReplaceDirPrefix(wd, nwd, file);
    JoinParts(nwd, file);
    ReplaceDirPrefix(nwd, wd, file);
  }

  /** At the root working directory the translation does not move the
      config file into the destination: "/" is replaced by "/" followed by
      the destination, which runs into the file name, and the target
      working directory stays "/". */
  lemma ConfigAtRootMerges(opts: TerragruntOptions, file: string)
    requires opts.workingDir == "/"
    requires IsComponent(opts.mvDestination) && IsComponent(file)
    requires opts.terragruntConfigPath == Join(opts.workingDir, file)
    ensures var t := NewOptionsWithReplacedPath(opts);
            && t.terragruntConfigPath == "/" + opts.mvDestination + file
            && t.workingDir == "/"
  {
    var d := opts.mvDestination;
    RootWorkingDirReplaced(opts, file);
    NewConfigPathIsReplaced(opts);
    DirOfTopLevel(d, file);
  }

  /** At "/" the destination is "/" followed by `MvDestination`, and the
      replacement puts it in front of the file name. */
  lemma RootWorkingDirReplaced(opts: TerragruntOptions, file: string)
    requires opts.workingDir == "/" && opts.terragruntConfigPath == "/" + file
    ensures NewWorkingDir(opts) == "/" + opts.mvDestination
    ensures ReplaceFirst(opts.terragruntConfigPath, "/", "/" + opts.mvDestination) == "/" + opts.mvDestination + file
  {
    assert LastSlash("/") == 0;
    var p := opts.terragruntConfigPath;
    assert HasPrefix(p, "/") && p[1..] == file;
  }

  // ---------------------------------------------------------------------
  // Temporary state files

  /** The temporary state file of module `m`: `path.Join(m.Path, filename)`. */
  function StateFile(m: TerraformModule, filename: string): Path {
    Join(m.path, filename)
  }

  /** The state files of the modules of `ms`. */
  function StateFiles(ms: seq<TerraformModule>, filename: string): set<Path> {
    set i | 0 <= i < |ms| :: StateFile(ms[i], filename)
  }

  lemma StateFilesCons(ms: seq<TerraformModule>, filename: string)
    requires |ms| > 0
    ensures StateFiles(ms, filename) == {StateFile(ms[0], filename)} + StateFiles(ms[1..], filename)
  {
    var tail := ms[1..];
    forall p | p in StateFiles(ms, filename)
      ensures p in {StateFile(ms[0], filename)} + StateFiles(tail, filename)
    {
      var i :| 0 <= i < |ms| && p == StateFile(ms[i], filename);
      if i > 0 {
        assert p == StateFile(tail[i - 1], filename);
      }
    }
    forall p | p in StateFiles(tail, filename)
      ensures p in StateFiles(ms, filename)
    {
      var i :| 0 <= i < |tail| && p == StateFile(tail[i], filename);
      assert p == StateFile(ms[i + 1], filename);
    }
  }

  /** `r` keeps some of the elements of `s`, in their order. */
  predicate SubsequenceOf<T(==)>(r: seq<T>, s: seq<T>)
    decreases |s|
  {
    if |r| == 0 then true
    else if |s| == 0 then false
    else (r[0] == s[0] && SubsequenceOf(r[1..], s[1..])) || SubsequenceOf(r, s[1..])
  }

  /** The destination filter: the modules of `ms` whose temporary state
      file exists, in their order. */
  function FilterMoved(ms: seq<TerraformModule>, filename: string, fs: FileSystem): (r: seq<TerraformModule>)
    ensures SubsequenceOf(r, ms)
    ensures forall i :: 0 <= i < |r| ==> FileExists(fs, StateFile(r[i], filename))
    ensures forall m :: m in ms && FileExists(fs, StateFile(m, filename)) ==> m in r
    decreases |ms|
  {
    if |ms| == 0 then []
    else
      var rest := FilterMoved(ms[1..], filename, fs);
      assert forall m :: m in ms && m != ms[0] ==> m in ms[1..];
      if FileExists(fs, StateFile(ms[0], filename)) then [ms[0]] + rest else rest
  }

  /** The filter keeps every occurrence of a module whose temporary state
      file exists, and no occurrence of any other module. */
  lemma {:induction false} FilterMovedCounts(ms: seq<TerraformModule>, filename: string, fs: FileSystem)
    ensures var r := FilterMoved(ms, filename, fs);
            forall m :: multiset(r)[m] == if FileExists(fs, StateFile(m, filename)) then multiset(ms)[m] else 0
    decreases |ms|
  {
    if |ms| > 0 {
      FilterMovedCounts(ms[1..], filename, fs);
      assert ms == [ms[0]] + ms[1..];
    }
  }

  /** Filtering a second time changes nothing. */
  lemma {:induction false} FilterMovedIdempotent(ms: seq<TerraformModule>, filename: string, fs: FileSystem)
    ensures FilterMoved(FilterMoved(ms, filename, fs), filename, fs) == FilterMoved(ms, filename, fs)
    decreases |ms|
  {
    if |ms| > 0 {
      FilterMovedIdempotent(ms[1..], filename, fs);
      var rest := FilterMoved(ms[1..], filename, fs);
      if FileExists(fs, StateFile(ms[0], filename)) {
        assert ([ms[0]] + rest)[1..] == rest;
      }
    }
  }

  /** The outcome of a cleanup and the filesystem it leaves. */
  datatype Cleanup = Cleanup(fs: FileSystem, outcome: Outcome<Error>)

  /** Module `ms[i]`'s state file exists and cannot be removed. */
  predicate Stuck(ms: seq<TerraformModule>, filename: string, fs: FileSystem, i: int)
    requires 0 <= i < |ms|
  {
    StateFile(ms[i], filename) in fs.files && StateFile(ms[i], filename) in fs.pinned
  }

  /** `cleanTmpFiles`: for each module in order, remove its state file if
      it exists; stop at the first removal that fails. Only `files`
      changes, and it only shrinks. */
  function CleanTmpFiles(stack: Stack, filename: string, fs: FileSystem): (r: Cleanup)
    ensures r.fs == fs.(files := r.fs.files)
    ensures r.fs.files <= fs.files
    decreases |stack.modules|
  {
    var ms := stack.modules;
    if |ms| == 0 then
      Cleanup(fs, Pass)
    else
      var f := StateFile(ms[0], filename);
      if FileExists(fs, f) && f in fs.pinned then
        Cleanup(fs, Fail(RemoveFailed(f)))
      else
        var next := if FileExists(fs, f) then fs.(files := fs.files - {f}) else fs;
        CleanTmpFiles(Stack(ms[1..]), filename, next)
  }

  /** The file system after handling the first module without failure. */
  function CleanFirst(ms: seq<TerraformModule>, filename: string, fs: FileSystem): FileSystem
    requires |ms| > 0
  {
    var f := StateFile(ms[0], filename);
    if FileExists(fs, f) then fs.(files := fs.files - {f}) else fs
  }

  /** Cleanup passes exactly when no module's state file is stuck, and then
      it has removed exactly the modules' state files. */
  lemma {:induction false} CleanPassesIffNoneStuck(stack: Stack, filename: string, fs: FileSystem)
    ensures var r := CleanTmpFiles(stack, filename, fs);
            && (r.outcome.Pass? <==> forall i :: 0 <= i < |stack.modules| ==> !Stuck(stack.modules, filename, fs, i))
            && (r.outcome.Pass? ==> r.fs.files == fs.files - StateFiles(stack.modules, filename))
    decreases |stack.modules|
  {
    var ms := stack.modules;
    if |ms| > 0 {
      var f := StateFile(ms[0], filename);
      if FileExists(fs, f) && f in fs.pinned {
        assert Stuck(ms, filename, fs, 0);
      } else {
        var next := CleanFirst(ms, filename, fs);
        assert CleanTmpFiles(stack, filename, fs) == CleanTmpFiles(Stack(ms[1..]), filename, next);
        CleanPassesIffNoneStuck(Stack(ms[1..]), filename, next);
        CleanStep(ms, filename, fs, next);
        StateFilesCons(ms, filename);
        assert !Stuck(ms, filename, fs, 0);
        assert (forall i :: 0 <= i < |ms| ==> !Stuck(ms, filename, fs, i))
               <==> (forall i :: 0 <= i < |ms| - 1 ==> !Stuck(ms[1..], filename, next, i)) by {
          if forall i :: 0 <= i < |ms| - 1 ==> !Stuck(ms[1..], filename, next, i) {
            forall i | 0 <= i < |ms|
              ensures !Stuck(ms, filename, fs, i)
            {
              if i > 0 {
                assert !Stuck(ms[1..], filename, next, i - 1);
              }
            }
          }
        }
      }
    }
  }

  /** Cleanup fails at the first module whose state file is stuck, having
      removed the state files of the modules before it and nothing else. */
  lemma {:induction false} CleanStopsAtFirstStuck(stack: Stack, filename: string, fs: FileSystem, k: nat)
    requires k < |stack.modules| && Stuck(stack.modules, filename, fs, k)
    requires forall j :: 0 <= j < k ==> !Stuck(stack.modules, filename, fs, j)
    ensures var r := CleanTmpFiles(stack, filename, fs);
            && r.outcome == Fail(RemoveFailed(StateFile(stack.modules[k], filename)))
            && r.fs.files == fs.files - StateFiles(stack.modules[..k], filename)
    decreases k
  {
    var ms := stack.modules;
    if k == 0 {
      assert ms[..0] == [];
    } else {
      assert !Stuck(ms, filename, fs, 0);
      var next := CleanFirst(ms, filename, fs);
      CleanStep(ms, filename, fs, next);
      CleanStopsAtFirstStuck(Stack(ms[1..]), filename, next, k - 1);
      assert ms[1..][..k - 1] == ms[..k][1..];
      StateFilesCons(ms[..k], filename);
    }
  }

  /** After the first module is handled without failure, "stuck" means the
      same for the remaining modules. */
  lemma CleanStep(ms: seq<TerraformModule>, filename: string, fs: FileSystem, next: FileSystem)
    requires |ms| > 0
    requires !(StateFile(ms[0], filename) in fs.files && StateFile(ms[0], filename) in fs.pinned)
    requires next == fs || next == fs.(files := fs.files - {StateFile(ms[0], filename)})
    ensures next.pinned == fs.pinned
    ensures forall i :: 0 <= i < |ms| - 1 ==> (Stuck(ms[1..], filename, next, i) <==> Stuck(ms, filename, fs, i + 1))
  {
  }

  /** Cleaning twice: the second run passes and changes nothing, because
      absent files are skipped. */
  lemma CleanTwice(stack: Stack, filename: string, fs: FileSystem)
    requires CleanTmpFiles(stack, filename, fs).outcome.Pass?
    ensures var once := CleanTmpFiles(stack, filename, fs);
            CleanTmpFiles(stack, filename, once.fs) == once
  {
    var once := CleanTmpFiles(stack, filename, fs);
    CleanPassesIffNoneStuck(stack, filename, fs);
    CleanPassesIffNoneStuck(stack, filename, once.fs);
    var twice := CleanTmpFiles(stack, filename, once.fs);
    assert forall i :: 0 <= i < |stack.modules| ==> StateFile(stack.modules[i], filename) !in once.fs.files;
    assert twice.fs.files == once.fs.files;
  }

  // ---------------------------------------------------------------------
  // The pipeline

  /** What a collaborator outside the model leaves behind: the file system
      after it ran, and whether it reported an error. A failing
      collaborator may still have changed the file system. */
  datatype Effect = Effect(after: FileSystem, outcome: Outcome<Error>)

  /** The operations `MvAll` calls but does not define: remote state pull
      and push for a stack (given the options and the local state file
      name), and the tree copy (given the source, the destination and the
      manifest's name). */
  datatype Collaborators = Collaborators(
    statePull: (Stack, TerragruntOptions, string, FileSystem) -> Effect,
    copyFolderContents: (Path, Path, string, FileSystem) -> Effect,
    statePush: (Stack, TerragruntOptions, string, FileSystem) -> Effect)

  /** The stages of `MvAll`, in the order they run. */
  datatype Stage = Discover | Pull | Copy | Filter | Push | Clean | DeferredClean

  /** What `MvAll` did, one event per stage that ran. `Filtered` records the
      discovered target stack, the modules kept and the file system the
      filter looked at. */
  datatype Event =
    | Discovered(root: Path, found: Result<Stack, Error>)
    | Pulled(stack: Stack, file: string, outcome: Outcome<Error>)
    | Copied(source: Path, destination: Path, manifest: string, outcome: Outcome<Error>)
    | Filtered(target: Stack, kept: Stack, file: string, seen: FileSystem)
    | Pushed(stack: Stack, file: string, outcome: Outcome<Error>)
    | Cleaned(stack: Stack, file: string, outcome: Outcome<Error>)
    | DeferredCleaned(stack: Stack, file: string, outcome: Outcome<Error>)

  function StageOf(e: Event): Stage {
    match e
    case Discovered(_, _) => Discover
    case Pulled(_, _, _) => Pull
    case Copied(_, _, _, _) => Copy
    case Filtered(_, _, _, _) => Filter
    case Pushed(_, _, _) => Push
    case Cleaned(_, _, _) => Clean
    case DeferredCleaned(_, _, _) => DeferredClean
  }

  /** Whether the stage reported an error; the filter never does. */
  function OutcomeOf(e: Event): Outcome<Error> {
    match e
    case Discovered(_, found) => if found.Success? then Pass else Fail(found.error)
    case Filtered(_, _, _, _) => Pass
    case Pulled(_, _, o) => o
    case Copied(_, _, _, o) => o
    case Pushed(_, _, o) => o
    case Cleaned(_, _, o) => o
    case DeferredCleaned(_, _, o) => o
  }

  /** The stages `MvAll` runs when nothing fails, before the deferred cleanup. */
  const Schedule: seq<Stage> := [Discover, Pull, Copy, Discover, Filter, Push, Clean, Clean]

  /** The result of a run: the error returned (if any), the file system
      left behind, and the events. */
  datatype Run = Run(outcome: Outcome<Error>, fs: FileSystem, trace: seq<Event>)

  /** `t` is a non-empty run of the schedule starting at stage number `from`. */
  predicate FollowsSchedule(t: seq<Event>, from: nat) {
    && 1 <= |t| && from + |t| <= |Schedule|
    && forall i :: 0 <= i < |t| ==> StageOf(t[i]) == Schedule[from + i]
  }

  /** Every event but the last passed, and the run returns the last one's outcome. */
  predicate StopsAtFirstFailure(t: seq<Event>, outcome: Outcome<Error>) {
    && 1 <= |t|
    && (forall i :: 0 <= i < |t| - 1 ==> OutcomeOf(t[i]).Pass?)
    && outcome == OutcomeOf(t[|t| - 1])
  }

  /** A run that returns no error went through every stage from `from` on. */
  predicate CompletesOnPass(t: seq<Event>, from: nat, outcome: Outcome<Error>) {
    outcome.Pass? ==> from + |t| == |Schedule|
  }

  /** The event names no state file, or the temporary one. */
  predicate NamesTmpFile(e: Event) {
    e.Discovered? || e.Copied? || e.file == TmpStatefileName
  }

  /** Every event that names a state file names the temporary one. */
  predicate UsesTmpFile(t: seq<Event>) {
    forall i :: 0 <= i < |t| ==> NamesTmpFile(t[i])
  }

  /** A well-shaped stretch `t` of a run, beginning at stage `from` and
      returning `outcome`. */
  predicate Staged(t: seq<Event>, outcome: Outcome<Error>, from: nat) {
    && FollowsSchedule(t, from)
    && StopsAtFirstFailure(t, outcome)
    && CompletesOnPass(t, from, outcome)
    && UsesTmpFile(t)
  }

  /** An event in front of a stretch: the stretch's events follow it, one
      position later. */
  lemma Prepended(e: Event, t: seq<Event>)
    ensures |[e] + t| == |t| + 1 && ([e] + t)[0] == e
    ensures forall i :: 0 <= i < |t| ==> ([e] + t)[i + 1] == t[i]
  {
  }

  /** A stage that passed, followed by a well-shaped stretch from the next stage. */
  lemma StagedCons(e: Event, t: seq<Event>, outcome: Outcome<Error>, from: nat)
    requires from < |Schedule| && StageOf(e) == Schedule[from] && OutcomeOf(e).Pass?
    requires NamesTmpFile(e)
    requires Staged(t, outcome, from + 1)
    ensures Staged([e] + t, outcome, from)
  {
    var s := [e] + t;
    forall i | 0 <= i < |s|
      ensures StageOf(s[i]) == Schedule[from + i]
    {
      if i > 0 {
        assert s[i] == t[i - 1];
      }
    }
    assert s[|s| - 1] == t[|t| - 1];
  }

  /** A stage that failed and ends the run. */
  lemma StagedLast(e: Event, from: nat)
    requires from < |Schedule| && StageOf(e) == Schedule[from] && OutcomeOf(e).Fail?
    requires NamesTmpFile(e)
    ensures Staged([e], OutcomeOf(e), from)
  {
  }

  /** A discovery runs the first stage, and the one after the copy. */
  lemma DiscoveredStage(root: Path, found: Result<Stack, Error>)
    ensures StageOf(Discovered(root, found)) == Schedule[0] == Schedule[3]
    ensures NamesTmpFile(Discovered(root, found))
  {
  }

  /** A pull runs the pull stage on the temporary state file. */
  lemma PulledStage(origin: Stack, outcome: Outcome<Error>)
    ensures StageOf(Pulled(origin, TmpStatefileName, outcome)) == Schedule[1]
    ensures NamesTmpFile(Pulled(origin, TmpStatefileName, outcome))
  {
  }

  /** No module of `s` has its temporary state file in `fs`. */
  predicate NoTmpFiles(s: Stack, fs: FileSystem) {
    forall i :: 0 <= i < |s.modules| ==> StateFile(s.modules[i], TmpStatefileName) !in fs.files
  }

  /** The two cleanups after a successful push: origin first, then target. */
  function CleanBoth(origin: Stack, moved: Stack, fs: FileSystem): Run {
    var o := CleanTmpFiles(origin, TmpStatefileName, fs);
    var e1 := Cleaned(origin, TmpStatefileName, o.outcome);
    if o.outcome.Fail? then Run(o.outcome, o.fs, [e1])
    else
      var t := CleanTmpFiles(moved, TmpStatefileName, o.fs);
      Run(t.outcome, t.fs, [e1, Cleaned(moved, TmpStatefileName, t.outcome)])
  }

  /** The cleanups are the last two stages. */
  lemma CleanBothStaged(origin: Stack, moved: Stack, fs: FileSystem)
    ensures var r := CleanBoth(origin, moved, fs);
            Staged(r.trace, r.outcome, 6)
  {
    var o := CleanTmpFiles(origin, TmpStatefileName, fs);
    var e1 := Cleaned(origin, TmpStatefileName, o.outcome);
    if o.outcome.Fail? {
      StagedLast(e1, 6);
    } else {
      var t := CleanTmpFiles(moved, TmpStatefileName, o.fs);
      var e2 := Cleaned(moved, TmpStatefileName, t.outcome);
      assert Staged([e2], t.outcome, 7);
      StagedCons(e1, [e2], t.outcome, 6);
      assert [e1] + [e2] == [e1, e2];
    }
  }

  /** The cleanups only remove files, and when both pass neither stack has
      a temporary state file left. */
  lemma CleanBothPass(origin: Stack, moved: Stack, fs: FileSystem)
    ensures var r := CleanBoth(origin, moved, fs);
            && r.fs.files <= fs.files
            && (r.outcome.Pass? ==> NoTmpFiles(origin, r.fs) && NoTmpFiles(moved, r.fs))
  {
    var o := CleanTmpFiles(origin, TmpStatefileName, fs);
    CleanPassesIffNoneStuck(origin, TmpStatefileName, fs);
    if o.outcome.Pass? {
      CleanPassesIffNoneStuck(moved, TmpStatefileName, o.fs);
    }
  }

  /** The modules of the target stack that the push is given: those whose
      temporary state file exists in the file system the filter saw. */
  predicate KeptAreMoved(e: Event)
    requires e.Filtered?
  {
    && SubsequenceOf(e.kept.modules, e.target.modules)
    && (forall i :: 0 <= i < |e.kept.modules| ==> FileExists(e.seen, StateFile(e.kept.modules[i], e.file)))
    && (forall m :: m in e.target.modules && FileExists(e.seen, StateFile(m, e.file)) ==> m in e.kept.modules)
  }

  /** Filter, push and clean, for a target stack discovered after the copy. */
  function Transfer(target: TerragruntOptions, origin: Stack, found: Stack, fs: FileSystem, c: Collaborators): Run {
    var moved := Stack(FilterMoved(found.modules, TmpStatefileName, fs));
    var e1 := Filtered(found, moved, TmpStatefileName, fs);
    var pushed := c.statePush(moved, target, TmpStatefileName, fs);
    var e2 := Pushed(moved, TmpStatefileName, pushed.outcome);
    if pushed.outcome.Fail? then Run(pushed.outcome, pushed.after, [e1, e2])
    else
      var rest := CleanBoth(origin, moved, pushed.after);
      Run(rest.outcome, rest.fs, [e1, e2] + rest.trace)
  }

  /** Filter, push and clean are stages four to seven. */
  lemma TransferStaged(target: TerragruntOptions, origin: Stack, found: Stack, fs: FileSystem, c: Collaborators)
    ensures var r := Transfer(target, origin, found, fs, c);
            Staged(r.trace, r.outcome, 4)
  {
    var moved := Stack(FilterMoved(found.modules, TmpStatefileName, fs));
    var e1 := Filtered(found, moved, TmpStatefileName, fs);
    var pushed := c.statePush(moved, target, TmpStatefileName, fs);
    var e2 := Pushed(moved, TmpStatefileName, pushed.outcome);
    if pushed.outcome.Fail? {
      StagedLast(e2, 5);
      StagedCons(e1, [e2], pushed.outcome, 4);
      assert [e1] + [e2] == [e1, e2];
    } else {
      var rest := CleanBoth(origin, moved, pushed.after);
      CleanBothStaged(origin, moved, pushed.after);
      StagedCons(e2, rest.trace, rest.outcome, 5);
      StagedCons(e1, [e2] + rest.trace, rest.outcome, 4);
      assert [e1] + ([e2] + rest.trace) == [e1, e2] + rest.trace;
    }
  }

  /** The filter looks at the file system it is given and keeps exactly
      the target modules whose temporary state file exists there; the push
      is called with those modules, the target options, the temporary file
      name and that same file system, and a failing push ends the run with
      its error and the file system it left. */
  lemma TransferFirst(target: TerragruntOptions, origin: Stack, found: Stack, fs: FileSystem, c: Collaborators)
    ensures var r := Transfer(target, origin, found, fs, c);
            && |r.trace| >= 2
            && r.trace[0].Filtered? && r.trace[0].target == found && r.trace[0].seen == fs
            && KeptAreMoved(r.trace[0])
            && r.trace[1].Pushed? && r.trace[1].stack == r.trace[0].kept && r.trace[1].file == TmpStatefileName
            && var pushed := c.statePush(r.trace[0].kept, target, TmpStatefileName, fs);
               && r.trace[1].outcome == pushed.outcome
               && (pushed.outcome.Fail? ==> |r.trace| == 2 && r.outcome == pushed.outcome && r.fs == pushed.after)
  {
    var moved := Stack(FilterMoved(found.modules, TmpStatefileName, fs));
    var pushed := c.statePush(moved, target, TmpStatefileName, fs);
    if pushed.outcome.Pass? {
      var rest := CleanBoth(origin, moved, pushed.after);
      var e1 := Filtered(found, moved, TmpStatefileName, fs);
      var e2 := Pushed(moved, TmpStatefileName, pushed.outcome);
      assert ([e1, e2] + rest.trace)[0] == e1 && ([e1, e2] + rest.trace)[1] == e2;
    }
  }

  /** A transfer that passes had a passing push, ends with the two
      cleanups run on the file system the push left, and leaves no
      temporary state file in either stack. */
  lemma TransferPass(target: TerragruntOptions, origin: Stack, found: Stack, fs: FileSystem, c: Collaborators)
    ensures var r := Transfer(target, origin, found, fs, c);
            r.outcome.Pass? ==>
              && |r.trace| >= 1 && r.trace[0].Filtered?
              && var pushed := c.statePush(r.trace[0].kept, target, TmpStatefileName, fs);
                 && pushed.outcome.Pass?
                 && r.fs == CleanBoth(origin, r.trace[0].kept, pushed.after).fs
                 && NoTmpFiles(origin, r.fs) && NoTmpFiles(r.trace[0].kept, r.fs)
  {
    var moved := Stack(FilterMoved(found.modules, TmpStatefileName, fs));
    var pushed := c.statePush(moved, target, TmpStatefileName, fs);
    if pushed.outcome.Pass? {
      CleanBothPass(origin, moved, pushed.after);
      TransferFirst(target, origin, found, fs, c);
    }
  }

  /** Discover the target stack in the destination, then filter, push and clean. */
  function DiscoverTarget(target: TerragruntOptions, origin: Stack, fs: FileSystem, c: Collaborators): Run {
    var found := FindStackInSubfolders(fs, target.workingDir);
    var e := Discovered(target.workingDir, found);
    if found.Failure? then Run(Fail(found.error), fs, [e])
    else
      var rest := Transfer(target, origin, found.value, fs, c);
      Run(rest.outcome, rest.fs, [e] + rest.trace)
  }

  /** The discovery of the target stack is stage three. */
  lemma DiscoverTargetStaged(target: TerragruntOptions, origin: Stack, fs: FileSystem, c: Collaborators)
    ensures var r := DiscoverTarget(target, origin, fs, c);
            Staged(r.trace, r.outcome, 3)
  {
    var found := FindStackInSubfolders(fs, target.workingDir);
    var e := Discovered(target.workingDir, found);
    DiscoveredStage(target.workingDir, found);
    if found.Failure? {
      StagedLast(e, 3);
    } else {
      var rest := Transfer(target, origin, found.value, fs, c);
      TransferStaged(target, origin, found.value, fs, c);
      StagedCons(e, rest.trace, rest.outcome, 3);
    }
  }

  /** The target stack is discovered in the target's working directory on
      the file system given; a failing discovery ends the run with that
      file system unchanged. Otherwise the filter is given the stack found
      there and the same file system, and the push is called with the
      modules it kept. */
  lemma DiscoverTargetFirst(target: TerragruntOptions, origin: Stack, fs: FileSystem, c: Collaborators)
    ensures var r := DiscoverTarget(target, origin, fs, c);
            && |r.trace| >= 1
            && r.trace[0] == Discovered(target.workingDir, FindStackInSubfolders(fs, target.workingDir))
            && (r.trace[0].found.Failure? ==> |r.trace| == 1 && r.fs == fs)
            && (|r.trace| >= 2 ==>
                  && |r.trace| >= 3
                  && r.trace[1].Filtered? && r.trace[0].found == Success(r.trace[1].target)
                  && r.trace[1].seen == fs && KeptAreMoved(r.trace[1])
                  && r.trace[2].Pushed? && r.trace[2].stack == r.trace[1].kept && r.trace[2].file == TmpStatefileName
                  && r.trace[2].outcome == c.statePush(r.trace[1].kept, target, TmpStatefileName, fs).outcome)
  {
    var found := FindStackInSubfolders(fs, target.workingDir);
    if found.Success? {
      var e := Discovered(target.workingDir, found);
      var rest := Transfer(target, origin, found.value, fs, c);
      TransferFirst(target, origin, found.value, fs, c);
      Prepended(e, rest.trace);
    }
  }

  /** A discovery that passes on to a transfer that passes leaves no
      temporary state file in either stack. */
  lemma DiscoverTargetPass(target: TerragruntOptions, origin: Stack, fs: FileSystem, c: Collaborators)
    ensures var r := DiscoverTarget(target, origin, fs, c);
            r.outcome.Pass? ==>
              && |r.trace| >= 2 && r.trace[1].Filtered?
              && NoTmpFiles(origin, r.fs) && NoTmpFiles(r.trace[1].kept, r.fs)
  {
    var found := FindStackInSubfolders(fs, target.workingDir);
    if found.Success? {
      var e := Discovered(target.workingDir, found);
      var rest := Transfer(target, origin, found.value, fs, c);
      TransferPass(target, origin, found.value, fs, c);
      Prepended(e, rest.trace);
    }
  }

  /** Copy the tree from the old working directory to the target's, then
      discover, filter, push and clean. */
  function Relocate(opts: TerragruntOptions, target: TerragruntOptions, origin: Stack, fs: FileSystem, c: Collaborators): Run {
    var copied := c.copyFolderContents(opts.workingDir, target.workingDir, MoveManifestName, fs);
    var e := Copied(opts.workingDir, target.workingDir, MoveManifestName, copied.outcome);
    if copied.outcome.Fail? then Run(copied.outcome, copied.after, [e])
    else
      var rest := DiscoverTarget(target, origin, copied.after, c);
      Run(rest.outcome, rest.fs, [e] + rest.trace)
  }

  /** The copy is stage two. */
  lemma RelocateStaged(opts: TerragruntOptions, target: TerragruntOptions, origin: Stack, fs: FileSystem, c: Collaborators)
    ensures var r := Relocate(opts, target, origin, fs, c);
            Staged(r.trace, r.outcome, 2)
  {
    var copied := c.copyFolderContents(opts.workingDir, target.workingDir, MoveManifestName, fs);
    var e := Copied(opts.workingDir, target.workingDir, MoveManifestName, copied.outcome);
    if copied.outcome.Fail? {
      StagedLast(e, 2);
    } else {
      var rest := DiscoverTarget(target, origin, copied.after, c);
      DiscoverTargetStaged(target, origin, copied.after, c);
      StagedCons(e, rest.trace, rest.outcome, 2);
    }
  }

  /** The copy is called from the old working directory to the target's,
      with the manifest's name, on the file system given; a failing copy
      ends the run with its error and the file system it left. Otherwise
      the target stack is discovered in the target's working directory on
      the file system the copy left, the filter looks at that file system,
      and the push is called with the modules it kept. */
  lemma RelocateFirst(opts: TerragruntOptions, target: TerragruntOptions, origin: Stack, fs: FileSystem, c: Collaborators)
    ensures var r := Relocate(opts, target, origin, fs, c);
            var copied := c.copyFolderContents(opts.workingDir, target.workingDir, MoveManifestName, fs);
            && |r.trace| >= 1
            && r.trace[0] == Copied(opts.workingDir, target.workingDir, MoveManifestName, copied.outcome)
            && (copied.outcome.Fail? ==> |r.trace| == 1 && r.outcome == copied.outcome && r.fs == copied.after)
            && (|r.trace| >= 2 ==>
                  r.trace[1] == Discovered(target.workingDir, FindStackInSubfolders(copied.after, target.workingDir)))
            && (|r.trace| >= 3 ==>
                  && |r.trace| >= 4
                  && r.trace[1].Discovered? && r.trace[2].Filtered?
                  && r.trace[1].found == Success(r.trace[2].target)
                  && r.trace[2].seen == copied.after && KeptAreMoved(r.trace[2])
                  && r.trace[3].Pushed? && r.trace[3].stack == r.trace[2].kept && r.trace[3].file == TmpStatefileName
                  && r.trace[3].outcome == c.statePush(r.trace[2].kept, target, TmpStatefileName, copied.after).outcome)
  {
    var copied := c.copyFolderContents(opts.workingDir, target.workingDir, MoveManifestName, fs);
    if copied.outcome.Pass? {
      var e := Copied(opts.workingDir, target.workingDir, MoveManifestName, copied.outcome);
      var rest := DiscoverTarget(target, origin, copied.after, c);
      DiscoverTargetFirst(target, origin, copied.after, c);
      Prepended(e, rest.trace);
    }
  }

  /** A relocation that passes leaves no temporary state file in the
      origin stack or in the modules the push was given. */
  lemma RelocatePass(opts: TerragruntOptions, target: TerragruntOptions, origin: Stack, fs: FileSystem, c: Collaborators)
    ensures var r := Relocate(opts, target, origin, fs, c);
            r.outcome.Pass? ==>
              && |r.trace| >= 3 && r.trace[2].Filtered?
              && NoTmpFiles(origin, r.fs) && NoTmpFiles(r.trace[2].kept, r.fs)
  {
    var copied := c.copyFolderContents(opts.workingDir, target.workingDir, MoveManifestName, fs);
    if copied.outcome.Pass? {
      var e := Copied(opts.workingDir, target.workingDir, MoveManifestName, copied.outcome);
      var rest := DiscoverTarget(target, origin, copied.after, c);
      DiscoverTargetPass(target, origin, copied.after, c);
      Prepended(e, rest.trace);
    }
  }

  /** The result of `MvAll`: the run of its stages, and the deferred
      cleanup of the origin stack when it was registered. The deferred
      cleanup runs after every stage has returned; its outcome is recorded
      but never returned. */
  datatype MvRun = MvRun(run: Run, deferred: Option<Event>)

  /** The run from the pull on: if the pull fails its error is returned and
      no cleanup is registered; otherwise the deferred cleanup of the origin
      is registered, the rest of the pipeline runs, and the deferred cleanup
      runs last on the file system the pipeline left. */
  function PullAndRelocate(opts: TerragruntOptions, origin: Stack, fs: FileSystem, c: Collaborators): MvRun {
    var pulled := c.statePull(origin, opts, TmpStatefileName, fs);
    var e := Pulled(origin, TmpStatefileName, pulled.outcome);
    if pulled.outcome.Fail? then MvRun(Run(pulled.outcome, pulled.after, [e]), None)
    else
      var main := Relocate(opts, NewOptionsWithReplacedPath(opts), origin, pulled.after, c);
      var deferred := CleanTmpFiles(origin, TmpStatefileName, main.fs);
      MvRun(Run(main.outcome, deferred.fs, [e] + main.trace),
            Some(DeferredCleaned(origin, TmpStatefileName, deferred.outcome)))
  }

  /** The pull is stage one. */
  lemma PullAndRelocateStaged(opts: TerragruntOptions, origin: Stack, fs: FileSystem, c: Collaborators)
    ensures var r := PullAndRelocate(opts, origin, fs, c);
            Staged(r.run.trace, r.run.outcome, 1)
  {
    var pulled := c.statePull(origin, opts, TmpStatefileName, fs);
    var e := Pulled(origin, TmpStatefileName, pulled.outcome);
    if pulled.outcome.Fail? {
      StagedLast(e, 1);
    } else {
      var main := Relocate(opts, NewOptionsWithReplacedPath(opts), origin, pulled.after, c);
      RelocateStaged(opts, NewOptionsWithReplacedPath(opts), origin, pulled.after, c);
      PulledStage(origin, pulled.outcome);
      StagedCons(e, main.trace, main.outcome, 1);
    }
  }

  /** The pull is of the origin stack into the temporary state file, and
      the deferred cleanup of the origin is registered exactly when it
      passes. */
  lemma PullAndRelocateFirst(opts: TerragruntOptions, origin: Stack, fs: FileSystem, c: Collaborators)
    ensures var r := PullAndRelocate(opts, origin, fs, c);
            && |r.run.trace| >= 1
            && r.run.trace[0] == Pulled(origin, TmpStatefileName, r.run.trace[0].outcome)
            && (r.deferred.Some? <==> OutcomeOf(r.run.trace[0]).Pass?)
            && (r.deferred.Some? ==>
                  && r.deferred.value.DeferredCleaned? && r.deferred.value.stack == origin
                  && r.deferred.value.file == TmpStatefileName)
  {
    var pulled := c.statePull(origin, opts, TmpStatefileName, fs);
    if pulled.outcome.Pass? {
      var e := Pulled(origin, TmpStatefileName, pulled.outcome);
      var main := Relocate(opts, NewOptionsWithReplacedPath(opts), origin, pulled.after, c);
      Prepended(e, main.trace);
    }
  }

  /** `MvAll`: discover the origin stack, then pull, relocate and clean. */
  function MvAll(opts: TerragruntOptions, fs: FileSystem, c: Collaborators): MvRun {
    var found := FindStackInSubfolders(fs, opts.workingDir);
    var e := Discovered(opts.workingDir, found);
    if found.Failure? then MvRun(Run(Fail(found.error), fs, [e]), None)
    else
      var rest := PullAndRelocate(opts, found.value, fs, c);
      MvRun(Run(rest.run.outcome, rest.run.fs, [e] + rest.run.trace), rest.deferred)
  }

  /** The run of `MvAll` follows the schedule from the discovery of the
      working directory on, and returns the error of the first stage that
      failed. */
  lemma MvAllStaged(opts: TerragruntOptions, fs: FileSystem, c: Collaborators)
    ensures var r := MvAll(opts, fs, c);
            Staged(r.run.trace, r.run.outcome, 0)
  {
    var found := FindStackInSubfolders(fs, opts.workingDir);
    var e := Discovered(opts.workingDir, found);
    if found.Failure? {
      StagedLast(e, 0);
    } else {
      var rest := PullAndRelocate(opts, found.value, fs, c);
      PullAndRelocateStaged(opts, found.value, fs, c);
      StagedCons(e, rest.run.trace, rest.run.outcome, 0);
    }
  }

  /** `MvAll` starts by discovering its working directory; the deferred
      cleanup is registered exactly when the pull succeeded, and it cleans
      the stack that was pulled. */
  lemma MvAllFirst(opts: TerragruntOptions, fs: FileSystem, c: Collaborators)
    ensures var r := MvAll(opts, fs, c);
            && |r.run.trace| >= 1
            && r.run.trace[0] == Discovered(opts.workingDir, FindStackInSubfolders(fs, opts.workingDir))
            && (r.deferred.Some? <==> |r.run.trace| >= 2 && OutcomeOf(r.run.trace[1]).Pass?)
            && (r.deferred.Some? ==>
                  && |r.run.trace| >= 2 && r.run.trace[1].Pulled?
                  && r.deferred.value.DeferredCleaned? && r.deferred.value.stack == r.run.trace[1].stack
                  && r.deferred.value.file == TmpStatefileName)
  {
    var found := FindStackInSubfolders(fs, opts.workingDir);
    if found.Success? {
      var e := Discovered(opts.workingDir, found);
      var rest := PullAndRelocate(opts, found.value, fs, c);
      PullAndRelocateFirst(opts, found.value, fs, c);
      Prepended(e, rest.run.trace);
    }
  }

  /** A stack with no temporary state files left is cleaned without error
      and without change. */
  lemma CleanNothing(s: Stack, fs: FileSystem)
    requires NoTmpFiles(s, fs)
    ensures CleanTmpFiles(s, TmpStatefileName, fs) == Cleanup(fs, Pass)
  {
    CleanPassesIffNoneStuck(s, TmpStatefileName, fs);
    var r := CleanTmpFiles(s, TmpStatefileName, fs);
    assert r.fs.files == fs.files;
  }

  /** When the origin stack cannot be discovered, `MvAll` returns that
      error and does nothing else: no pull, copy, push or cleanup. */
  lemma MvAllDiscoveryFails(opts: TerragruntOptions, fs: FileSystem, c: Collaborators)
    requires FindStackInSubfolders(fs, opts.workingDir).Failure?
    ensures var err := FindStackInSubfolders(fs, opts.workingDir).error;
            MvAll(opts, fs, c) == MvRun(Run(Fail(err), fs, [Discovered(opts.workingDir, Failure(err))]), None)
  {
  }

  /** When the pull fails, `MvAll` returns the pull's error, leaves the file
      system as the pull left it, and registers no cleanup. */
  lemma MvAllPullFails(opts: TerragruntOptions, fs: FileSystem, c: Collaborators)
    requires FindStackInSubfolders(fs, opts.workingDir).Success?
    requires var origin := FindStackInSubfolders(fs, opts.workingDir).value;
             c.statePull(origin, opts, TmpStatefileName, fs).outcome.Fail?
    ensures var origin := FindStackInSubfolders(fs, opts.workingDir).value;
            var pulled := c.statePull(origin, opts, TmpStatefileName, fs);
            var r := MvAll(opts, fs, c);
            && r.run.outcome == pulled.outcome
            && r.run.fs == pulled.after
            && r.deferred == None
            && |r.run.trace| == 2
  {
  }

  /** The origin stack is discovered and its state is pulled without error. */
  predicate PullSucceeds(opts: TerragruntOptions, fs: FileSystem, c: Collaborators) {
    var found := FindStackInSubfolders(fs, opts.workingDir);
    found.Success? && c.statePull(found.value, opts, TmpStatefileName, fs).outcome.Pass?
  }

  /** Once the pull has succeeded, the run of `MvAll` is the discovery,
      the pull, and the run of `Relocate` on the translated options; the
      deferred cleanup of the origin runs on what `Relocate` left. */
  lemma MvAllAfterPull(opts: TerragruntOptions, fs: FileSystem, c: Collaborators)
    requires PullSucceeds(opts, fs, c)
    ensures var found := FindStackInSubfolders(fs, opts.workingDir);
            var pulled := c.statePull(found.value, opts, TmpStatefileName, fs);
            var main := Relocate(opts, NewOptionsWithReplacedPath(opts), found.value, pulled.after, c);
            var deferred := CleanTmpFiles(found.value, TmpStatefileName, main.fs);
            var r := MvAll(opts, fs, c);
            && r.run.outcome == main.outcome
            && r.run.fs == deferred.fs
            && r.run.trace == [Discovered(opts.workingDir, found), Pulled(found.value, TmpStatefileName, Pass)] + main.trace
            && r.deferred == Some(DeferredCleaned(found.value, TmpStatefileName, deferred.outcome))
  {
    var found := FindStackInSubfolders(fs, opts.workingDir);
    var pulled := c.statePull(found.value, opts, TmpStatefileName, fs);
    var main := Relocate(opts, NewOptionsWithReplacedPath(opts), found.value, pulled.after, c);
    var e0 := Discovered(opts.workingDir, found);
    var e1 := Pulled(found.value, TmpStatefileName, Pass);
    assert [e0] + ([e1] + main.trace) == [e0, e1] + main.trace;
  }

  /** After a successful pull, the copy is called from the old working
      directory to the translated one on the file system the pull left;
      the target stack is discovered there on the file system the copy
      left, the filter looks at that file system, and the push is called
      with exactly the filtered target modules and the target options. */
  lemma MvAllPushesMovedModules(opts: TerragruntOptions, fs: FileSystem, c: Collaborators)
    requires PullSucceeds(opts, fs, c)
    ensures var t := MvAll(opts, fs, c).run.trace;
            var target := NewOptionsWithReplacedPath(opts);
            var pulled := c.statePull(FindStackInSubfolders(fs, opts.workingDir).value, opts, TmpStatefileName, fs);
            var copied := c.copyFolderContents(opts.workingDir, target.workingDir, MoveManifestName, pulled.after);
            && |t| >= 3
            && t[2] == Copied(opts.workingDir, target.workingDir, MoveManifestName, copied.outcome)
            && (|t| >= 4 ==> t[3] == Discovered(target.workingDir, FindStackInSubfolders(copied.after, target.workingDir)))
            && (|t| >= 5 ==>
                  && t[3].Discovered? && t[4].Filtered? && t[3].found == Success(t[4].target)
                  && t[4].seen == copied.after && KeptAreMoved(t[4])
                  && |t| >= 6 && t[5].Pushed? && t[5].stack == t[4].kept && t[5].file == TmpStatefileName
                  && t[5].outcome == c.statePush(t[4].kept, target, TmpStatefileName, copied.after).outcome)
  {
    MvAllAfterPull(opts, fs, c);
    var found := FindStackInSubfolders(fs, opts.workingDir);
    var pulled := c.statePull(found.value, opts, TmpStatefileName, fs);
    var main := Relocate(opts, NewOptionsWithReplacedPath(opts), found.value, pulled.after, c);
    RelocateFirst(opts, NewOptionsWithReplacedPath(opts), found.value, pulled.after, c);
    var t := MvAll(opts, fs, c).run.trace;
    assert forall i :: 0 <= i < |main.trace| ==> t[i + 2] == main.trace[i];
  }

  /** A run of `MvAll` that returns no error discovered the origin stack
      and pulled its state. */
  lemma PassMeansPullSucceeds(opts: TerragruntOptions, fs: FileSystem, c: Collaborators)
    requires MvAll(opts, fs, c).run.outcome.Pass?
    ensures PullSucceeds(opts, fs, c)
  {
  }

  /** When `MvAll` returns no error, every stage of the schedule ran, in
      order, and passed. */
  lemma MvAllRunsEveryStage(opts: TerragruntOptions, fs: FileSystem, c: Collaborators)
    requires MvAll(opts, fs, c).run.outcome.Pass?
    ensures var t := MvAll(opts, fs, c).run.trace;
            && |t| == |Schedule|
            && forall i :: 0 <= i < |t| ==> StageOf(t[i]) == Schedule[i] && OutcomeOf(t[i]).Pass?
  {
    MvAllStaged(opts, fs, c);
  }

  /** When `MvAll` returns no error, no module of the origin stack still
      has a temporary state file. */
  lemma MvAllCleansOrigin(opts: TerragruntOptions, fs: FileSystem, c: Collaborators)
    requires MvAll(opts, fs, c).run.outcome.Pass?
    ensures var r := MvAll(opts, fs, c);
            NoTmpFiles(FindStackInSubfolders(fs, opts.workingDir).value, r.run.fs)
  {
    PassMeansPullSucceeds(opts, fs, c);
    MvAllAfterPull(opts, fs, c);
    var found := FindStackInSubfolders(fs, opts.workingDir);
    var pulled := c.statePull(found.value, opts, TmpStatefileName, fs);
    var main := Relocate(opts, NewOptionsWithReplacedPath(opts), found.value, pulled.after, c);
    RelocatePass(opts, NewOptionsWithReplacedPath(opts), found.value, pulled.after, c);
    CleanNothing(found.value, main.fs);
  }

  /** When `MvAll` returns no error, no module the push was given still
      has a temporary state file. */
  lemma MvAllCleansMoved(opts: TerragruntOptions, fs: FileSystem, c: Collaborators)
    requires MvAll(opts, fs, c).run.outcome.Pass?
    ensures var r := MvAll(opts, fs, c);
            && |r.run.trace| == |Schedule| && r.run.trace[4].Filtered?
            && NoTmpFiles(r.run.trace[4].kept, r.run.fs)
  {
    PassMeansPullSucceeds(opts, fs, c);
    MvAllAfterPull(opts, fs, c);
    var found := FindStackInSubfolders(fs, opts.workingDir);
    var pulled := c.statePull(found.value, opts, TmpStatefileName, fs);
    var main := Relocate(opts, NewOptionsWithReplacedPath(opts), found.value, pulled.after, c);
    RelocateStaged(opts, NewOptionsWithReplacedPath(opts), found.value, pulled.after, c);
    RelocatePass(opts, NewOptionsWithReplacedPath(opts), found.value, pulled.after, c);
    CleanNothing(found.value, main.fs);
    assert MvAll(opts, fs, c).run.trace[4] == main.trace[2];
  }

  /** When `MvAll` returns no error, the deferred cleanup of the origin
      stack finds nothing to remove and passes. */
  lemma MvAllDeferredFindsNothing(opts: TerragruntOptions, fs: FileSystem, c: Collaborators)
    requires MvAll(opts, fs, c).run.outcome.Pass?
    ensures var r := MvAll(opts, fs, c);
            r.deferred == Some(DeferredCleaned(FindStackInSubfolders(fs, opts.workingDir).value, TmpStatefileName, Pass))
  {
    PassMeansPullSucceeds(opts, fs, c);
    MvAllAfterPull(opts, fs, c);
    var found := FindStackInSubfolders(fs, opts.workingDir);
    var pulled := c.statePull(found.value, opts, TmpStatefileName, fs);
    var main := Relocate(opts, NewOptionsWithReplacedPath(opts), found.value, pulled.after, c);
    RelocatePass(opts, NewOptionsWithReplacedPath(opts), found.value, pulled.after, c);
    CleanNothing(found.value, main.fs);
  }
}

=== FILE: options.dfy ===
/** The fields of the per-run options that relocation reads or rewrites. */
module Options {
  import opened Paths

  datatype TerragruntOptions = TerragruntOptions(
    terragruntConfigPath: Path,
    workingDir: Path,
    downloadDir: Path,
    mvDestination: string)

  /** `Clone(configPath)`: a copy whose config path is `configPath` and whose
      working directory is the directory holding that file; every other
      field is copied. */
  function Clone(o: TerragruntOptions, configPath: Path): (r: TerragruntOptions)
    ensures r.terragruntConfigPath == configPath
    ensures r.workingDir == Dir(configPath)
    ensures r.downloadDir == o.downloadDir && r.mvDestination == o.mvDestination
  {
    o.(terragruntConfigPath := configPath, workingDir := Dir(configPath))
  }
}

=== FILE: paths.dfy ===
/** Slash-separated paths as Go's `path/filepath` treats them on a Unix
    system. The functions agree with `filepath.Dir`, `filepath.Base` and
    `filepath.Join` on clean absolute paths (`IsAbs`) and single path
    elements (`IsComponent`); they do not perform `filepath.Clean`. */
module Paths {
  import opened Strings

  type Path = string

  /** Position of the last '/' in `p`, or -1 when there is none. */
  function LastSlash(p: string): (i: int)
    ensures -1 <= i < |p|
    ensures 0 <= i ==> p[i] == '/'
    ensures '/' !in p[i + 1..]
  {
    if |p| == 0 then -1
    else if p[|p| - 1] == '/' then |p| - 1
    else LastSlash(p[..|p| - 1])
  }

  /** One path element: non-empty, without a separator, not "." or "..". */
  predicate IsComponent(c: string) {
    |c| > 0 && '/' !in c && c != "." && c != ".."
  }

  /** A clean absolute path: "/" or "/c1/c2/.../cn" with every ci a component. */
  predicate IsAbs(p: string)
    decreases |p|
  {
    p == "/" ||
    (|p| >= 2 && p[0] == '/' &&
     var i := LastSlash(p);
     IsComponent(p[i + 1..]) && (i == 0 || (p[..i] != "/" && IsAbs(p[..i]))))
  }

  /** `filepath.Dir`: everything before the last element. */
  function Dir(p: string): string {
    var i := LastSlash(p);
    if i < 0 then "."
    else if i == 0 then "/"
    else p[..i]
  }

  /** `filepath.Base` on a path other than "/": the last element. */
  function Base(p: string): string {
    p[LastSlash(p) + 1..]
  }

  /** `filepath.Join(dir, elem)` (and `path.Join`) for a clean absolute `dir`. */
  function Join(dir: string, elem: string): string {
    if dir == "/" then "/" + elem else dir + "/" + elem
  }

  /** `p` is `root` itself or lies somewhere below it. */
  predicate IsUnder(p: string, root: string) {
    p == root || HasPrefix(p, if root == "/" then "/" else root + "/")
  }

  lemma LastSlashAfter(x: string, c: string)
    requires '/' !in c
    ensures LastSlash(x + "/" + c) == |x|
  {
    var p := x + "/" + c;
    var i := LastSlash(p);
    assert p[|x|] == '/';
  }

  /** A name without a separator directly under "/", here written in two
      pieces, has directory "/". */
  lemma DirOfTopLevel(a: string, b: string)
    requires '/' !in a && '/' !in b
    ensures Dir("/" + a + b) == "/"
  {
    LastSlashAfter("", a + b);
    assert "" + "/" + (a + b) == "/" + a + b;
  }

  /** Joining a component onto a clean absolute directory gives a clean
      absolute path whose directory and last element are the two parts. */
  lemma JoinParts(dir: string, elem: string)
    requires IsAbs(dir) && IsComponent(elem)
    ensures IsAbs(Join(dir, elem))
    ensures Join(dir, elem) != "/"
    ensures Dir(Join(dir, elem)) == dir
    ensures Base(Join(dir, elem)) == elem
    ensures IsUnder(Join(dir, elem), dir)
  {
    var p := Join(dir, elem);
    if dir == "/" {
      assert p == "" + "/" + elem;
      LastSlashAfter("", elem);
      assert p[1..] == elem;
    } else {
      LastSlashAfter(dir, elem);
      assert p[..|dir|] == dir;
      assert p[|dir| + 1..] == elem;
      assert p[0] == dir[0];
      assert p[..|dir| + 1] == dir + "/";
    }
  }

  /** Every clean absolute path other than "/" is its directory joined with
      its last element. */
  lemma DirBaseJoin(p: string)
    requires IsAbs(p) && p != "/"
    ensures IsAbs(Dir(p)) && IsComponent(Base(p))
    ensures Join(Dir(p), Base(p)) == p
  {
    var i := LastSlash(p);
    assert p[0] == '/';
    if i == 0 {
      assert p == "/" + p[1..];
    } else {
      assert p == p[..i] + "/" + p[i + 1..];
    }
  }

  /** Being under a directory is inherited by everything joined below it. */
  lemma JoinStaysUnder(dir: string, elem: string, root: string)
    requires IsAbs(dir) && IsComponent(elem) && IsUnder(dir, root)
    ensures IsUnder(Join(dir, elem), root)
  {
    JoinParts(dir, elem);
    var p := Join(dir, elem);
    if root == "/" {
      assert p[0] == '/';
    } else if dir != root {
      var q := root + "/";
      assert dir[..|q|] == q;
      assert p[..|dir|] == dir;
      assert p[..|q|] == q;
    }
  }

  /** A path under `root` starts with `root`, so removing the first
      occurrence of `root` and putting it back in front restores the path. */
  lemma UnderStripRoot(p: string, root: string)
    requires IsUnder(p, root)
    ensures HasPrefix(p, root)
    ensures root + ReplaceFirst(p, root, "") == p
  {
    assert HasPrefix(p, root) by {
      if p != root {
        var q := if root == "/" then "/" else root + "/";
        assert p[..|q|] == q;
        assert p[..|root|] == q[..|root|];
      }
    }
    assert ReplaceFirst(p, root, "") == "" + p[|root|..] == p[|root|..];
    assert root + p[|root|..] == p;
  }

  /** A component joined below a directory under `root` is a clean
      absolute path under `root`. */
  lemma JoinBelow(dir: string, elem: string, root: string)
    requires IsAbs(dir) && IsComponent(elem) && IsUnder(dir, root)
    ensures IsAbs(Join(dir, elem)) && IsUnder(Join(dir, elem), root)
  {
    JoinParts(dir, elem);
    JoinStaysUnder(dir, elem, root);
  }
}

=== FILE: sorting.dfy ===
/** Lexicographic order on strings and the sorted listing of a finite set of
    strings, used to give discovered modules a deterministic order. */
module Sorting {

  /** `a` sorts strictly before `b`, character by character. */
  predicate Before(a: string, b: string)
    decreases |a|
  {
    |b| > 0 && (|a| == 0 || a[0] < b[0] || (a[0] == b[0] && Before(a[1..], b[1..])))
  }

  lemma BeforeIrreflexive(a: string)
    ensures !Before(a, a)
  {
  }

  lemma {:induction false} BeforeTransitive(a: string, b: string, c: string)
    requires Before(a, b) && Before(b, c)
    ensures Before(a, c)
    decreases |a|
  {
    if |a| > 0 && a[0] == b[0] && b[0] == c[0] {
      BeforeTransitive(a[1..], b[1..], c[1..]);
    }
  }

  lemma {:induction false} BeforeTotal(a: string, b: string)
    ensures a == b || Before(a, b) || Before(b, a)
    decreases |a|
  {
    if |a| > 0 && |b| > 0 && a[0] == b[0] {
      BeforeTotal(a[1..], b[1..]);
      if a[1..] == b[1..] {
        assert a == [a[0]] + a[1..] && b == [b[0]] + b[1..];
      }
    }
  }

  /** No two distinct strings sort before each other. */
  lemma BeforeAsymmetric()
    ensures forall a, b :: Before(a, b) ==> !Before(b, a)
  {
    forall a, b | Before(a, b)
      ensures !Before(b, a)
    {
      if Before(b, a) {
        BeforeTransitive(a, b, a);
        BeforeIrreflexive(a);
      }
    }
  }

  /** `m` is the least element of `s`. */
  predicate IsLeast(m: string, s: set<string>) {
    m in s && forall y :: y in s ==> y == m || Before(m, y)
  }

  lemma {:induction false} LeastExists(s: set<string>)
    requires s != {}
    ensures exists m :: IsLeast(m, s)
    decreases |s|
  {
    var x :| x in s;
    if s - {x} == {} {
      assert s == {x};
      assert IsLeast(x, s);
    } else {
      LeastExists(s - {x});
      var m :| IsLeast(m, s - {x});
      BeforeTotal(x, m);
      if Before(x, m) {
        forall y | y in s
          ensures y == x || Before(x, y)
        {
          if y != x && y != m {
            BeforeTransitive(x, m, y);
          }
        }
        assert IsLeast(x, s);
      } else {
        assert IsLeast(m, s);
      }
    }
  }

  /** The elements of `s` in ascending order, each exactly once. */
  function SortedList(s: set<string>): (r: seq<string>)
    ensures |r| == |s|
    ensures forall x :: x in s <==> x in r
    ensures forall i, j :: 0 <= i < j < |r| ==> Before(r[i], r[j])
    decreases |s|
  {
    if s == {} then []
    else
      LeastExists(s);
      LeastUnique(s);
      var m :| IsLeast(m, s);
      var rest := SortedList(s - {m});
      SortedCons(m, s, rest);
      [m] + rest
  }

  /** A set has at most one least element. */
  lemma LeastUnique(s: set<string>)
    ensures forall a, b :: IsLeast(a, s) && IsLeast(b, s) ==> a == b
  {
    BeforeAsymmetric();
  }

  /** The least element of `s` in front of the sorted listing of the
      others is a sorted listing of `s`. */
  lemma SortedCons(m: string, s: set<string>, rest: seq<string>)
    requires IsLeast(m, s)
    requires |rest| == |s - {m}|
    requires forall x :: x in s - {m} <==> x in rest
    requires forall i, j :: 0 <= i < j < |rest| ==> Before(rest[i], rest[j])
    ensures |[m] + rest| == |s|
    ensures forall x :: x in s <==> x in [m] + rest
    ensures forall i, j :: 0 <= i < j < |[m] + rest| ==> Before(([m] + rest)[i], ([m] + rest)[j])
  {
    var r := [m] + rest;
    forall i, j | 0 <= i < j < |r|
      ensures Before(r[i], r[j])
    {
      if i == 0 {
        assert r[j] == rest[j - 1] && r[j] in s - {m};
      } else {
        assert r[i] == rest[i - 1] && r[j] == rest[j - 1];
      }
    }
  }
}

=== FILE: stack.dfy ===
/** Stack discovery: every directory under a root that directly holds the
    configuration file becomes one module of the stack. */
module ConfigStack {
  import opened Wrappers
  import opened Strings
  import opened Paths
  import opened Files
  import Sorting

  /** The configuration file name that marks a module directory. */
  const ConfigFileName: string := "terraform.tfvars"

  datatype TerraformModule = TerraformModule(path: Path)

  datatype Stack = Stack(modules: seq<TerraformModule>)

  /** `f` is a configuration file whose directory lies under `root`. */
  predicate IsConfigUnder(f: Path, root: Path) {
    Base(f) == ConfigFileName && IsUnder(Dir(f), root)
  }

  /** Configuration files whose directory lies under `root`. */
  function ConfigFiles(fs: FileSystem, root: Path): set<Path> {
    set f | f in fs.files && IsConfigUnder(f, root)
  }

  /** Directories under `root` that directly contain the configuration file. */
  function ConfigDirs(fs: FileSystem, root: Path): set<Path> {
    set f | f in ConfigFiles(fs, root) :: Dir(f)
  }

  /** Directories under `root` (the root included) that cannot be listed. */
  function DeniedUnder(fs: FileSystem, root: Path): set<Path> {
    set d | d in fs.denied && IsUnder(d, root)
  }

  function ModulesAt(paths: seq<Path>): (ms: seq<TerraformModule>)
    ensures |ms| == |paths|
    ensures forall i :: 0 <= i < |paths| ==> ms[i].path == paths[i]
  {
    seq(|paths|, i requires 0 <= i < |paths| => TerraformModule(paths[i]))
  }

  /** The module paths of `s` are the directories of `dirs`, each exactly once. */
  predicate ModulesExactly(s: Stack, dirs: set<Path>) {
    && (forall i :: 0 <= i < |s.modules| ==> s.modules[i].path in dirs)
    && (forall d :: d in dirs ==> exists i :: 0 <= i < |s.modules| && s.modules[i].path == d)
    && (forall i, j :: 0 <= i < j < |s.modules| ==> s.modules[i].path != s.modules[j].path)
  }

  /** A stack with one module per directory of `dirs`, in sorted order. */
  function StackOf(dirs: set<Path>): (s: Stack)
    ensures ModulesExactly(s, dirs)
    ensures |s.modules| == |dirs|
  {
    var sorted := Sorting.SortedList(dirs);
    forall i, j | 0 <= i < j < |sorted|
      ensures sorted[i] != sorted[j]
    {
      Sorting.BeforeIrreflexive(sorted[i]);
    }
    var s := Stack(ModulesAt(sorted));
    assert forall d :: d in dirs ==> exists i :: 0 <= i < |s.modules| && s.modules[i].path == d by {
      forall d | d in dirs
        ensures exists i :: 0 <= i < |s.modules| && s.modules[i].path == d
      {
        var i :| 0 <= i < |sorted| && sorted[i] == d;
        assert s.modules[i].path == d;
      }
    }
    s
  }

  /** The directory the walk reports when a directory under `root`
      cannot be listed: the first such directory in lexicographic order. */
  function FirstDenied(fs: FileSystem, root: Path): (d: Path)
    requires DeniedUnder(fs, root) != {}
    ensures d in fs.denied && IsUnder(d, root)
  {
    Sorting.SortedList(DeniedUnder(fs, root))[0]
  }

  /** `FindStackInSubfolders(opts)` for `opts.WorkingDir == root`. The walk
      fails when the root is missing or a directory under it cannot be
      listed; otherwise the modules are the configuration directories. */
  function FindStackInSubfolders(fs: FileSystem, root: Path): (r: Result<Stack, Error>)
    ensures r.Success? <==> root in fs.dirs && DeniedUnder(fs, root) == {}
    ensures r.Failure? && root !in fs.dirs ==> r.error == NotExist(root)
    ensures r.Failure? && root in fs.dirs ==>
              r.error.PermissionDenied? && r.error.path in fs.denied && IsUnder(r.error.path, root)
  {
    if root !in fs.dirs then Failure(NotExist(root))
    else if DeniedUnder(fs, root) != {} then Failure(PermissionDenied(FirstDenied(fs, root)))
    else Success(StackOf(ConfigDirs(fs, root)))
  }

  /** A successful discovery has one module per configuration directory
      under the root, and no other module. */
  lemma DiscoveryExact(fs: FileSystem, root: Path)
    requires FindStackInSubfolders(fs, root).Success?
    ensures ModulesExactly(FindStackInSubfolders(fs, root).value, ConfigDirs(fs, root))
    ensures |FindStackInSubfolders(fs, root).value.modules| == |ConfigDirs(fs, root)|
  {
  }

  /** Every configuration file under the root is found: some module's path
      joined with the configuration file name is that file. */
  lemma DiscoveryFindsEveryConfigFile(fs: FileSystem, root: Path, f: Path)
    requires FindStackInSubfolders(fs, root).Success?
    requires f in fs.files && IsConfigUnder(f, root) && IsAbs(f) && f != "/"
    ensures var ms := FindStackInSubfolders(fs, root).value.modules;
            exists i :: 0 <= i < |ms| && Join(ms[i].path, ConfigFileName) == f
  {
    DiscoveryExact(fs, root);
    var ms := FindStackInSubfolders(fs, root).value.modules;
    assert Dir(f) in ConfigDirs(fs, root);
    var i :| 0 <= i < |ms| && ms[i].path == Dir(f);
    DirBaseJoin(f);
  }

  /** Every module is a directory under the root that directly holds a
      configuration file; stripping the root from its path and putting the
      root back in front gives the path again. */
  lemma DiscoveredModulesAreConfigDirs(fs: FileSystem, root: Path, i: nat)
    requires FindStackInSubfolders(fs, root).Success?
    requires i < |FindStackInSubfolders(fs, root).value.modules|
    ensures var p := FindStackInSubfolders(fs, root).value.modules[i].path;
            && (exists f :: f in fs.files && Base(f) == ConfigFileName && Dir(f) == p)
            && IsUnder(p, root)
            && root + ReplaceFirst(p, root, "") == p
  {
    DiscoveryExact(fs, root);
    var p := FindStackInSubfolders(fs, root).value.modules[i].path;
    assert p in ConfigDirs(fs, root);
    var f :| f in ConfigFiles(fs, root) && Dir(f) == p;
    UnderStripRoot(p, root);
  }

  /** A root that exists and holds no files gives an empty stack, not an error. */
  lemma EmptyTreeGivesEmptyStack(root: Path)
    ensures FindStackInSubfolders(TreeOf([], root), root) == Success(Stack([]))
  {
    var fs := TreeOf([], root);
    assert fs.files == {};
    assert ConfigFiles(fs, root) == {};
    assert ConfigDirs(fs, root) == {};
    assert DeniedUnder(fs, root) == {};
  }

  /** A tree whose only files are the configuration files of the
      directories listed in `dirs`, with `root` present as a directory. */
  function TreeOf(dirs: seq<Path>, root: Path): FileSystem {
    FileSystem(set i | 0 <= i < |dirs| :: Join(dirs[i], ConfigFileName), {root}, {}, {})
  }

  /** The directories listed in `dirs`, as a set. */
  function Listed(dirs: seq<Path>): set<Path> {
    set i | 0 <= i < |dirs| :: dirs[i]
  }

  /** Discovery over such a tree yields exactly the listed directories. */
  lemma DiscoverTree(dirs: seq<Path>, root: Path)
    requires forall i :: 0 <= i < |dirs| ==> IsAbs(dirs[i]) && IsUnder(dirs[i], root)
    ensures FindStackInSubfolders(TreeOf(dirs, root), root).Success?
    ensures ModulesExactly(FindStackInSubfolders(TreeOf(dirs, root), root).value, Listed(dirs))
    ensures ConfigDirs(TreeOf(dirs, root), root) == Listed(dirs)
  {
    var fs := TreeOf(dirs, root);
    TreeConfigDirs(dirs, root);
    assert DeniedUnder(fs, root) == {};
    DiscoveryExact(fs, root);
  }

  /** The configuration directories of such a tree are the listed ones. */
  lemma TreeConfigDirs(dirs: seq<Path>, root: Path)
    requires forall i :: 0 <= i < |dirs| ==> IsAbs(dirs[i]) && IsUnder(dirs[i], root)
    ensures ConfigDirs(TreeOf(dirs, root), root) == Listed(dirs)
  {
    var fs := TreeOf(dirs, root);
    var listed := Listed(dirs);
    assert IsComponent(ConfigFileName);
    forall d | d in listed
      ensures d in ConfigDirs(fs, root)
    {
      var i :| 0 <= i < |dirs| && dirs[i] == d;
      JoinParts(d, ConfigFileName);
      assert Join(d, ConfigFileName) in ConfigFiles(fs, root);
    }
    forall x | x in ConfigDirs(fs, root)
      ensures x in listed
    {
      var f :| f in ConfigFiles(fs, root) && Dir(f) == x;
      var i :| 0 <= i < |dirs| && f == Join(dirs[i], ConfigFileName);
      JoinParts(dirs[i], ConfigFileName);
    }
  }

  /** Five directories listed in a sequence, as a set. A proof step of
      `FiveModuleTree`, kept apart so that proof stays small. */
  lemma ListedFive(p1: Path, p2: Path, p3: Path, p4: Path, p5: Path)
    ensures Listed([p1, p2, p3, p4, p5]) == {p1, p2, p3, p4, p5}
  {
    var ds := [p1, p2, p3, p4, p5];
    assert ds[0] == p1 && ds[1] == p2 && ds[2] == p3 && ds[3] == p4 && ds[4] == p5;
  }

  /** A tree with the configuration files of five directories under the
      root gives exactly those five modules. */
  lemma FiveModuleTree(root: Path, p1: Path, p2: Path, p3: Path, p4: Path, p5: Path)
    requires IsAbs(p1) && IsUnder(p1, root) && IsAbs(p2) && IsUnder(p2, root)
    requires IsAbs(p3) && IsUnder(p3, root) && IsAbs(p4) && IsUnder(p4, root)
    requires IsAbs(p5) && IsUnder(p5, root)
    ensures var r := FindStackInSubfolders(TreeOf([p1, p2, p3, p4, p5], root), root);
            r.Success? && ModulesExactly(r.value, {p1, p2, p3, p4, p5})
  {
    var ds := [p1, p2, p3, p4, p5];
    assert forall i :: 0 <= i < |ds| ==> IsAbs(ds[i]) && IsUnder(ds[i], root);
    DiscoverTree(ds, root);
    ListedFive(p1, p2, p3, p4, p5);
  }

  /** The shape of the discovery test's tree: modules `a` and `b` two
      levels down inside a directory `group` that holds no configuration
      file, and modules `c`, `d` and `e` directly under the root. */
  lemma TwoLevelTree(root: Path, group: string, a: string, b: string, c: string, d: string, e: string)
    requires IsAbs(root) && IsComponent(group)
    requires IsComponent(a) && IsComponent(b) && IsComponent(c) && IsComponent(d) && IsComponent(e)
    ensures var g := Join(root, group);
            var r := FindStackInSubfolders(TreeOf([Join(g, a), Join(g, b), Join(root, c), Join(root, d), Join(root, e)], root), root);
            r.Success? && ModulesExactly(r.value, {Join(g, a), Join(g, b), Join(root, c), Join(root, d), Join(root, e)})
  {
    var g := Join(root, group);
    JoinBelow(root, group, root);
    JoinBelow(g, a, root);
    JoinBelow(g, b, root);
    JoinBelow(root, c, root);
    JoinBelow(root, d, root);
    JoinBelow(root, e, root);
    FiveModuleTree(root, Join(g, a), Join(g, b), Join(root, c), Join(root, d), Join(root, e));
  }

  /** The discovery test's own tree: data-stores/redis, data-stores/postgres,
      ecs-cluster, kms-master-key and vpc. */
  lemma StageTree(root: Path)
    requires IsAbs(root)
    ensures var g := Join(root, "data-stores");
            var r := FindStackInSubfolders(TreeOf([Join(g, "redis"), Join(g, "postgres"), Join(root, "ecs-cluster"),
                                                   Join(root, "kms-master-key"), Join(root, "vpc")], root), root);
            r.Success? && ModulesExactly(r.value, {Join(g, "redis"), Join(g, "postgres"), Join(root, "ecs-cluster"),
                                                   Join(root, "kms-master-key"), Join(root, "vpc")})
  {
    TwoLevelTree(root, "data-stores", "redis", "postgres", "ecs-cluster", "kms-master-key", "vpc");
  }

  /** A stack whose modules are exactly one directory has one module. */
  lemma OnlyModule(s: Stack, dir: Path)
    requires ModulesExactly(s, {dir}) && |s.modules| == 1
    ensures s == Stack([TerraformModule(dir)])
  {
    var ms := s.modules;
    assert ms[0].path == dir;
    assert ms == [TerraformModule(dir)];
  }

  /** One listed directory, as a set. A proof step of `SingleModuleTree`,
      kept apart so that proof stays small. */
  lemma ListedOne(dir: Path)
    ensures Listed([dir]) == {dir}
  {
    assert [dir][0] == dir;
  }

  /** A tree holding the configuration file of one directory gives a stack
      of exactly that one module. */
  lemma SingleModuleTree(dir: Path, root: Path)
    requires IsAbs(dir) && IsUnder(dir, root)
    ensures FindStackInSubfolders(TreeOf([dir], root), root) == Success(Stack([TerraformModule(dir)]))
  {
    DiscoverTree([dir], root);
    ListedOne(dir);
    DiscoveryExact(TreeOf([dir], root), root);
    OnlyModule(FindStackInSubfolders(TreeOf([dir], root), root).value, dir);
  }

  /** A module two levels below the root, inside a directory that holds no
      configuration file itself, is found; its parent is not a module. */
  lemma NestedModuleFound(root: Path, group: string, name: string)
    requires IsAbs(root) && IsComponent(group) && IsComponent(name)
    ensures var dir := Join(Join(root, group), name);
            FindStackInSubfolders(TreeOf([dir], root), root) == Success(Stack([TerraformModule(dir)]))
  {
    var g := Join(root, group);
    JoinBelow(root, group, root);
    JoinBelow(g, name, root);
    SingleModuleTree(Join(g, name), root);
  }
}

=== FILE: strings.dfy ===
/** Substring search and the single-occurrence replacement of Go's
    `strings.Replace(s, pattern, replacement, 1)`. */
module Strings {

  predicate HasPrefix(s: string, prefix: string) {
    |prefix| <= |s| && s[..|prefix|] == prefix
  }

  /** `sub` occurs in `s` starting at position `i`. */
  predicate OccursAt(s: string, sub: string, i: int) {
    0 <= i && i + |sub| <= |s| && s[i..i + |sub|] == sub
  }

  predicate Contains(s: string, sub: string) {
    exists i :: 0 <= i <= |s| && OccursAt(s, sub, i)
  }

  /** Position of the first occurrence of `sub` in `s` at or after `from`,
      or -1 when there is none. */
  function IndexFrom(s: string, sub: string, from: nat): (i: int)
    requires from <= |s|
    ensures i == -1 || (from <= i && OccursAt(s, sub, i))
    ensures forall j :: from <= j && (i == -1 || j < i) ==> !OccursAt(s, sub, j)
    decreases |s| - from
  {
    if from + |sub| > |s| then -1
    else if s[from..from + |sub|] == sub then from
    else IndexFrom(s, sub, from + 1)
  }

  /** Go's `strings.Index`: the first occurrence, 0 for an empty `sub`. */
  function Index(s: string, sub: string): (i: int)
    ensures i == -1 <==> !Contains(s, sub)
    ensures i != -1 ==> OccursAt(s, sub, i) && forall j :: 0 <= j < i ==> !OccursAt(s, sub, j)
  {
    IndexFrom(s, sub, 0)
  }

  /** Go's `strings.Replace(s, pattern, replacement, 1)`: the first occurrence of `pattern`
      is replaced by `replacement`; an empty `pattern` matches at the very beginning. */
  function ReplaceFirst(s: string, pattern: string, replacement: string): (r: string)
    ensures !Contains(s, pattern) ==> r == s
    ensures HasPrefix(s, pattern) ==> r == replacement + s[|pattern|..]
    ensures Contains(s, pattern) ==>
              exists i :: 0 <= i <= |s| && OccursAt(s, pattern, i) && r == s[..i] + replacement + s[i + |pattern|..]
                          && forall j :: 0 <= j < i ==> !OccursAt(s, pattern, j)
  {
    var i := Index(s, pattern);
    if i == -1 then s
    else
      assert HasPrefix(s, pattern) ==> OccursAt(s, pattern, 0);
      s[..i] + replacement + s[i + |pattern|..]
  }

  /** When `pattern` occurs, the replacement lands at its first occurrence, `Index`. */
  lemma ReplaceFirstAtIndex(s: string, pattern: string, replacement: string)
    requires Contains(s, pattern)
    ensures 0 <= Index(s, pattern) && OccursAt(s, pattern, Index(s, pattern))
    ensures ReplaceFirst(s, pattern, replacement)
            == s[..Index(s, pattern)] + replacement + s[Index(s, pattern) + |pattern|..]
  {
  }

  /** Replacing a leading `pattern` by `replacement` and then the first `replacement`
      back by `pattern` restores the string. */
  lemma ReplacePrefixRoundTrip(s: string, pattern: string, replacement: string)
    requires HasPrefix(s, pattern)
    ensures ReplaceFirst(ReplaceFirst(s, pattern, replacement), replacement, pattern) == s
  {
    var r := ReplaceFirst(s, pattern, replacement);
    assert r == replacement + s[|pattern|..];
    assert HasPrefix(r, replacement);
    assert r[|replacement|..] == s[|pattern|..];
    assert pattern + s[|pattern|..] == s;
  }
}

=== FILE: version.dfy ===
/** The Terraform version gate: reading the version out of the banner that
    `terraform --version` prints, and checking it against a constraint
    expression such as `>= v0.9.3`. Versions are compared component by
    component, major first, as section 11 of Semantic Versioning 2.0.0
    prescribes for versions without pre-release identifiers. */
module VersionCheck {
  import opened Wrappers
  import opened Strings

  /** A release version. `original` is the text it was read from, as
      `version.NewVersion` keeps it, so "v0.9.3" and "0.9.3" denote the
      same release but are different values. */
  datatype Version = Version(major: nat, minor: nat, patch: nat, original: string)

  /** The comparison operators of a constraint. */
  datatype Op = Equal | NotEqual | Greater | Less | GreaterEqual | LessEqual

  datatype Constraint = Constraint(op: Op, version: Version)

  datatype VersionError =
    | InvalidTerraformVersionSyntax(text: string)
    | MalformedConstraint(text: string)
    | InvalidTerraformVersion(current: Version, constraint: Constraint)

  /** The product name that opens the banner. */
  const Product: string := "Terraform "

  // ---------------------------------------------------------------------
  // Decimal numerals

  predicate IsDigit(c: char) {
    '0' <= c <= '9'
  }

  predicate AllDigits(d: string) {
    forall i :: 0 <= i < |d| ==> IsDigit(d[i])
  }

  /** The value of a decimal numeral. */
  function DigitsValue(d: string): nat
    requires AllDigits(d)
    decreases |d|
  {
    if |d| == 0 then 0
    else DigitsValue(d[..|d| - 1]) * 10 + (d[|d| - 1] as int - '0' as int)
  }

  function DigitChar(k: nat): (c: char)
    requires k < 10
    ensures IsDigit(c) && c as int - '0' as int == k
  {
    ('0' as int + k) as char
  }

  /** The decimal numeral of `n`, without leading zeros. */
  function NatToString(n: nat): (d: string)
    ensures |d| > 0 && AllDigits(d)
    ensures DigitsValue(d) == n
    decreases n
  {
    if n < 10 then [DigitChar(n)]
    else
      var prefix := NatToString(n / 10);
      var d := prefix + [DigitChar(n % 10)];
      assert d[..|d| - 1] == prefix;
      d
  }

  /** End of the run of digits that starts at `from`. */
  function DigitRun(s: string, from: nat): (e: nat)
    requires from <= |s|
    ensures from <= e <= |s|
    ensures forall i :: from <= i < e ==> IsDigit(s[i])
    ensures e == |s| || !IsDigit(s[e])
    decreases |s| - from
  {
    if from < |s| && IsDigit(s[from]) then DigitRun(s, from + 1) else from
  }

  /** The digit run at the start of `d + y` is `d` when `y` does not go on
      with a digit. */
  lemma DigitRunOf(d: string, y: string)
    requires AllDigits(d)
    requires |y| == 0 || !IsDigit(y[0])
    ensures DigitRun(d + y, 0) == |d|
  {
    var s := d + y;
    assert forall i :: 0 <= i < |d| ==> s[i] == d[i];
    assert |y| > 0 ==> s[|d|] == y[0];
  }

  /** A numeral read off the front of a text, and the text after it. */
  datatype Numeral = Numeral(value: nat, rest: string)

  /** Reads the non-empty digit run at the start of `s`. */
  function ScanNumber(s: string): (r: Option<Numeral>)
    ensures r.None? <==> |s| == 0 || !IsDigit(s[0])
    ensures r.Some? ==> |r.value.rest| < |s|
    ensures r.Some? ==> |r.value.rest| == 0 || !IsDigit(r.value.rest[0])
  {
    var e := DigitRun(s, 0);
    if e == 0 then None else Some(Numeral(DigitsValue(s[..e]), s[e..]))
  }

  /** A numeral followed by anything that does not go on with a digit
      reads as its value, and leaves exactly what followed it. */
  lemma ScanNumeral(d: string, y: string)
    requires |d| > 0 && AllDigits(d)
    requires |y| == 0 || !IsDigit(y[0])
    ensures ScanNumber(d + y) == Some(Numeral(DigitsValue(d), y))
  {
    DigitRunOf(d, y);
    assert (d + y)[..|d|] == d;
    assert (d + y)[|d|..] == y;
  }

  // ---------------------------------------------------------------------
  // Version tokens

  /** A non-empty numeral. */
  predicate IsNumeral(d: string) {
    |d| > 0 && AllDigits(d)
  }

  /** The token `v + a + "." + b + "." + c`, for `v` empty or "v". */
  function Token(v: string, a: string, b: string, c: string): string {
    v + a + "." + b + "." + c
  }

  /** The optional `v` in front of a version. */
  function VPrefix(withV: bool): string {
    if withV then "v" else ""
  }

  /** The text `[v]major.minor.patch` of a version. */
  function VersionText(withV: bool, major: nat, minor: nat, patch: nat): string {
    Token(VPrefix(withV), NatToString(major), NatToString(minor), NatToString(patch))
  }

  /** A version read off the front of a text, and the text after it. */
  datatype VersionScan = VersionScan(version: Version, rest: string)

  /** `s` without a leading `v`. */
  function StripV(s: string): (r: string)
    ensures |r| <= |s|
  {
    if |s| > 0 && s[0] == 'v' then s[1..] else s
  }

  /** Reads `.N` at the start of `s`. */
  function ScanDotNumber(s: string): (r: Option<Numeral>)
    ensures r.Some? ==> |r.value.rest| < |s|
  {
    if |s| > 0 && s[0] == '.' then ScanNumber(s[1..]) else None
  }

  /** Reads a version token `[v]X.Y.Z` at the start of `s`: an optional
      `v` and three non-empty digit runs separated by dots. The token ends
      where the third digit run ends; what follows is handed back. */
  function ScanVersion(s: string): (r: Option<VersionScan>)
    ensures r.Some? ==> |r.value.rest| == 0 || !IsDigit(r.value.rest[0])
  {
    match ScanNumber(StripV(s))
    case None => None
    case Some(x) =>
      match ScanDotNumber(x.rest)
      case None => None
      case Some(y) =>
        match ScanDotNumber(y.rest)
        case None => None
        case Some(z) =>
          Some(VersionScan(Version(x.value, y.value, z.value, s[..|s| - |z.rest|]), z.rest))
  }

  /** A token followed by `r`, its concatenations grouped as the scanner
      takes it apart. */
  lemma TokenGrouping(v: string, a: string, b: string, c: string, r: string)
    ensures Token(v, a, b, c) + r == v + (a + ("." + b + ("." + c + r)))
  {
  }

  lemma StripVOf(v: string, x: string)
    requires v == "" || v == "v"
    requires |x| > 0 && IsDigit(x[0])
    ensures StripV(v + x) == x
  {
    if v == "" {
      assert v + x == x;
    } else {
      assert (v + x)[1..] == x;
    }
  }

  /** `.N` followed by anything that does not go on with a digit reads as
      N's value and leaves what followed. */
  lemma ScanDotNumeral(d: string, y: string)
    requires IsNumeral(d)
    requires |y| == 0 || !IsDigit(y[0])
    ensures ScanDotNumber("." + d + y) == Some(Numeral(DigitsValue(d), y))
  {
    assert ("." + d + y)[1..] == d + y;
    ScanNumeral(d, y);
  }

  lemma DropSuffix(t: string, r: string)
    ensures (t + r)[..|t + r| - |r|] == t
  {
    assert (t + r)[..|t|] == t;
  }

  /** A token followed by anything that does not go on with a digit reads
      as the token's three numbers, the token kept as the original. */
  lemma ScanToken(v: string, a: string, b: string, c: string, rest: string)
    requires v == "" || v == "v"
    requires IsNumeral(a) && IsNumeral(b) && IsNumeral(c)
    requires |rest| == 0 || !IsDigit(rest[0])
    ensures var t := Token(v, a, b, c);
            ScanVersion(t + rest)
            == Some(VersionScan(Version(DigitsValue(a), DigitsValue(b), DigitsValue(c), t), rest))
  {
    var t := Token(v, a, b, c);
    var s := t + rest;
    var r2 := "." + c + rest;
    var r1 := "." + b + r2;
    TokenGrouping(v, a, b, c, rest);
    StripVOf(v, a + r1);
    ScanNumeral(a, r1);
    ScanDotNumeral(b, r2);
    ScanDotNumeral(c, rest);
    DropSuffix(t, rest);
    ScanVersionSteps(s, Numeral(DigitsValue(a), r1), Numeral(DigitsValue(b), r2), Numeral(DigitsValue(c), rest));
  }

  /** `ScanVersion` is its three steps. */
  lemma ScanVersionSteps(s: string, x: Numeral, y: Numeral, z: Numeral)
    requires ScanNumber(StripV(s)) == Some(x)
    requires ScanDotNumber(x.rest) == Some(y) && ScanDotNumber(y.rest) == Some(z)
    ensures |z.rest| <= |s|
    ensures ScanVersion(s).Some? && ScanVersion(s).value.rest == z.rest
    ensures ScanVersion(s).value.version == Version(x.value, y.value, z.value, s[..|s| - |z.rest|])
  {
  }

  /** A version's text followed by anything that does not go on with a
      digit reads back as that version, its text kept as the original. */
  lemma ScanVersionText(withV: bool, major: nat, minor: nat, patch: nat, rest: string)
    requires |rest| == 0 || !IsDigit(rest[0])
    ensures var t := VersionText(withV, major, minor, patch);
            ScanVersion(t + rest) == Some(VersionScan(Version(major, minor, patch, t), rest))
  {
    ScanToken(VPrefix(withV), NatToString(major), NatToString(minor), NatToString(patch), rest);
  }

  lemma StripVSplit(s: string) returns (v: string)
    ensures v == "" || v == "v"
    ensures s == v + StripV(s)
  {
    if |s| > 0 && s[0] == 'v' {
      v := "v";
      assert s == [s[0]] + s[1..];
    } else {
      v := "";
    }
  }

  lemma ScanNumberSplit(s: string) returns (d: string)
    requires ScanNumber(s).Some?
    ensures IsNumeral(d) && s == d + ScanNumber(s).value.rest
  {
    var n := DigitRun(s, 0);
    d := s[..n];
    assert s == s[..n] + s[n..];
  }

  lemma ScanDotNumberSplit(s: string) returns (d: string)
    requires ScanDotNumber(s).Some?
    ensures IsNumeral(d) && s == "." + d + ScanDotNumber(s).value.rest
  {
    d := ScanNumberSplit(s[1..]);
    assert s == [s[0]] + s[1..];
  }

  /** Every text `ScanVersion` accepts is a token followed by its rest. */
  lemma ScanVersionPieces(s: string) returns (v: string, a: string, b: string, c: string)
    requires ScanVersion(s).Some?
    ensures v == "" || v == "v"
    ensures IsNumeral(a) && IsNumeral(b) && IsNumeral(c)
    ensures s == Token(v, a, b, c) + ScanVersion(s).value.rest
  {
    v := StripVSplit(s);
    var x := ScanNumber(StripV(s)).value;
    a := ScanNumberSplit(StripV(s));
    var y := ScanDotNumber(x.rest).value;
    b := ScanDotNumberSplit(x.rest);
    var z := ScanDotNumber(y.rest).value;
    c := ScanDotNumberSplit(y.rest);
    TokenGrouping(v, a, b, c, z.rest);
  }

  /** Whatever a successful scan found, the token it consumed followed by
      any text that does not go on with a digit scans to the same version:
      the version is determined by its own text. */
  lemma ScanVersionRest(s: string, rest: string)
    requires ScanVersion(s).Some?
    requires |rest| == 0 || !IsDigit(rest[0])
    ensures s == ScanVersion(s).value.version.original + ScanVersion(s).value.rest
    ensures ScanVersion(ScanVersion(s).value.version.original + rest)
            == Some(VersionScan(ScanVersion(s).value.version, rest))
  {
    var v, a, b, c := ScanVersionPieces(s);
    ScanToken(v, a, b, c, ScanVersion(s).value.rest);
    ScanToken(v, a, b, c, rest);
  }

  /** A token that is the whole text is its own original. */
  lemma ScanVersionWhole(s: string)
    requires ScanVersion(s).Some? && ScanVersion(s).value.rest == ""
    ensures ScanVersion(s).value.version.original == s
  {
    var v, a, b, c := ScanVersionPieces(s);
    ScanToken(v, a, b, c, "");
    assert Token(v, a, b, c) + "" == Token(v, a, b, c);
  }

  // ---------------------------------------------------------------------
  // The banner

  /** `parseTerraformVersion`: the banner must open with the product name,
      followed by a version token; whatever follows the token (a commit
      hash, a `-dev` suffix) is ignored, provided it does not go on with a
      digit. Any other text is rejected with an error carrying that text. */
  function ParseTerraformVersion(s: string): (r: Result<Version, VersionError>)
    ensures r.Failure? ==> r.error == InvalidTerraformVersionSyntax(s)
    ensures r.Success? ==> HasPrefix(s, Product + r.value.original)
    ensures r.Success? ==> ScanVersion(r.value.original) == Some(VersionScan(r.value, ""))
    ensures r.Success? ==> var n := |Product + r.value.original|; n == |s| || !IsDigit(s[n])
    ensures r.Success? <==> HasPrefix(s, Product) && ScanVersion(s[|Product|..]).Some?
  {
    if HasPrefix(s, Product) then
      var rest := s[|Product|..];
      match ScanVersion(rest)
      case Some(v) =>
        ScanVersionRest(rest, "");
        BannerPrefix(s, v.version.original, v.rest);
        assert v.version.original + "" == v.version.original;
        Success(v.version)
      case None => Failure(InvalidTerraformVersionSyntax(s))
    else Failure(InvalidTerraformVersionSyntax(s))
  }

  /** The product name and the token open the banner, and `rest` follows them. */
  lemma BannerPrefix(s: string, token: string, rest: string)
    requires HasPrefix(s, Product) && s[|Product|..] == token + rest
    ensures HasPrefix(s, Product + token)
    ensures s[|Product + token|..] == rest
  {
    assert s == Product + s[|Product|..];
    assert s == (Product + token) + rest;
    assert s[..|Product + token|] == Product + token;
  }

  /** A banner `Terraform [v]X.Y.Z<rest>`, where `rest` does not go on
      with a digit, reads as version X.Y.Z. */
  lemma ParseBanner(withV: bool, major: nat, minor: nat, patch: nat, rest: string)
    requires |rest| == 0 || !IsDigit(rest[0])
    ensures var t := VersionText(withV, major, minor, patch);
            ParseTerraformVersion(Product + t + rest) == Success(Version(major, minor, patch, t))
  {
    var t := VersionText(withV, major, minor, patch);
    var s := Product + t + rest;
    assert HasPrefix(s, Product);
    assert s[|Product|..] == t + rest;
    ScanVersionText(withV, major, minor, patch, rest);
  }

  /** The two versions denote the same release. */
  predicate SameRelease(a: Version, b: Version) {
    a.major == b.major && a.minor == b.minor && a.patch == b.patch
  }

  /** The leading `v` is optional: with or without it the banner reads as
      the same release, whatever follows the token. */
  lemma ParseWithoutV(major: nat, minor: nat, patch: nat, rest: string)
    requires |rest| == 0 || !IsDigit(rest[0])
    ensures var withV := ParseTerraformVersion(Product + VersionText(true, major, minor, patch) + rest);
            var without := ParseTerraformVersion(Product + VersionText(false, major, minor, patch) + rest);
            withV.Success? && without.Success? && SameRelease(withV.value, without.value)
  {
    ParseBanner(true, major, minor, patch, rest);
    ParseBanner(false, major, minor, patch, rest);
  }

  /** Text after the token is ignored: the banner with a suffix reads as
      exactly the banner without it. */
  lemma ParseIgnoresSuffix(withV: bool, major: nat, minor: nat, patch: nat, suffix: string)
    requires |suffix| == 0 || !IsDigit(suffix[0])
    ensures var t := VersionText(withV, major, minor, patch);
            ParseTerraformVersion(Product + t + suffix) == ParseTerraformVersion(Product + t)
  {
    ParseBanner(withV, major, minor, patch, suffix);
    ParseBanner(withV, major, minor, patch, "");
    assert Product + VersionText(withV, major, minor, patch) + "" == Product + VersionText(withV, major, minor, patch);
  }

  /** One banner test case: `Product + t + rest` reads as `t`'s version. */
  lemma ParseTestBanner(withV: bool, major: nat, minor: nat, patch: nat, t: string, rest: string, banner: string)
    requires t == VersionText(withV, major, minor, patch)
    requires banner == Product + t + rest
    requires |rest| == 0 || !IsDigit(rest[0])
    ensures ParseTerraformVersion(banner) == Success(Version(major, minor, patch, t))
  {
    ParseBanner(withV, major, minor, patch, rest);
  }

  /** The commit hash in the banners of development builds. */
  const CommitHash: string := "cad024a5fe131a546936674ef85445215bbc4226"

  /** The banner test cases: "Terraform v0.9.3", "Terraform 0.9.3", a
      trailing commit hash, and a `-dev` suffix with and without the
      `(hash+CHANGES)` part. */
  lemma ParseTestBanners()
    ensures ParseTerraformVersion("Terraform v0.9.3") == Success(Version(0, 9, 3, "v0.9.3"))
    ensures ParseTerraformVersion("Terraform 0.9.3") == Success(Version(0, 9, 3, "0.9.3"))
    ensures ParseTerraformVersion("Terraform v0.9.4 " + CommitHash) == Success(Version(0, 9, 4, "v0.9.4"))
    ensures ParseTerraformVersion("Terraform v0.9.4-dev (" + CommitHash + "+CHANGES)")
            == Success(Version(0, 9, 4, "v0.9.4"))
    ensures ParseTerraformVersion("Terraform v0.9.4-dev") == Success(Version(0, 9, 4, "v0.9.4"))
  {
    ReleaseBanner();
    ReleaseBannerWithoutV();
    CommitBanner();
    ChangesBanner();
    DevBanner();
  }

  lemma ReleaseBanner()
    ensures ParseTerraformVersion("Terraform v0.9.3") == Success(Version(0, 9, 3, "v0.9.3"))
  {
    assert VersionText(true, 0, 9, 3) == "v0.9.3";
    ParseTestBanner(true, 0, 9, 3, "v0.9.3", "", "Terraform v0.9.3");
  }

  lemma ReleaseBannerWithoutV()
    ensures ParseTerraformVersion("Terraform 0.9.3") == Success(Version(0, 9, 3, "0.9.3"))
  {
    assert VersionText(false, 0, 9, 3) == "0.9.3";
    ParseTestBanner(false, 0, 9, 3, "0.9.3", "", "Terraform 0.9.3");
  }

  lemma CommitBanner()
    ensures ParseTerraformVersion("Terraform v0.9.4 " + CommitHash) == Success(Version(0, 9, 4, "v0.9.4"))
  {
    assert VersionText(true, 0, 9, 4) == "v0.9.4";
    ParseTestBanner(true, 0, 9, 4, "v0.9.4", " " + CommitHash, "Terraform v0.9.4 " + CommitHash);
  }

  lemma ChangesBanner()
    ensures ParseTerraformVersion("Terraform v0.9.4-dev (" + CommitHash + "+CHANGES)")
            == Success(Version(0, 9, 4, "v0.9.4"))
  {
    assert VersionText(true, 0, 9, 4) == "v0.9.4";
    ChangesText(CommitHash);
    ParseTestBanner(true, 0, 9, 4, "v0.9.4", "-dev (" + CommitHash + "+CHANGES)",
                    "Terraform v0.9.4-dev (" + CommitHash + "+CHANGES)");
  }

  lemma ChangesText(hash: string)
    ensures "Terraform v0.9.4-dev (" + hash + "+CHANGES)" == Product + "v0.9.4" + ("-dev (" + hash + "+CHANGES)")
    ensures ("-dev (" + hash + "+CHANGES)")[0] == '-'
  {
  }

  lemma DevBanner()
    ensures ParseTerraformVersion("Terraform v0.9.4-dev") == Success(Version(0, 9, 4, "v0.9.4"))
  {
    assert VersionText(true, 0, 9, 4) == "v0.9.4";
    ParseTestBanner(true, 0, 9, 4, "v0.9.4", "-dev", "Terraform v0.9.4-dev");
  }

  /** Text that does not open with the product name is rejected, and the
      error carries the text. */
  lemma ParseInvalidSyntax()
    ensures ParseTerraformVersion("invalid-syntax") == Failure(InvalidTerraformVersionSyntax("invalid-syntax"))
  {
    assert !HasPrefix("invalid-syntax", Product) by {
      assert "invalid-syntax"[0] != Product[0];
    }
  }

  // ---------------------------------------------------------------------
  // Precedence

  /** -1, 0 or 1 as `a` precedes, equals or follows `b`: major, minor and
      patch are compared numerically, in that order. */
  function Compare(a: Version, b: Version): (c: int)
    ensures -1 <= c <= 1
  {
    if a.major != b.major then (if a.major < b.major then -1 else 1)
    else if a.minor != b.minor then (if a.minor < b.minor then -1 else 1)
    else if a.patch != b.patch then (if a.patch < b.patch then -1 else 1)
    else 0
  }

  /** The components of a version, most significant first. */
  function Components(v: Version): seq<nat> {
    [v.major, v.minor, v.patch]
  }

  /** Lexicographic order on equally long sequences of numbers: the first
      position where they differ decides. */
  predicate LexLess(x: seq<nat>, y: seq<nat>)
    requires |x| == |y|
    decreases |x|
  {
    |x| > 0 && (x[0] < y[0] || (x[0] == y[0] && LexLess(x[1..], y[1..])))
  }

  /** `Compare` is the lexicographic order of the components. */
  lemma CompareIsLexicographic(a: Version, b: Version)
    ensures Compare(a, b) < 0 <==> LexLess(Components(a), Components(b))
    ensures Compare(a, b) == 0 <==> Components(a) == Components(b)
    ensures Compare(a, b) > 0 <==> LexLess(Components(b), Components(a))
  {
    LexLessThree(a.major, a.minor, a.patch, b.major, b.minor, b.patch);
    LexLessThree(b.major, b.minor, b.patch, a.major, a.minor, a.patch);
  }

  /** `LexLess` on three components, written out. */
  lemma LexLessThree(x0: nat, x1: nat, x2: nat, y0: nat, y1: nat, y2: nat)
    ensures LexLess([x0, x1, x2], [y0, y1, y2])
            <==> x0 < y0 || (x0 == y0 && (x1 < y1 || (x1 == y1 && x2 < y2)))
  {
    assert [x2][1..] == [] && [y2][1..] == [];
    assert LexLess([x2], [y2]) <==> x2 < y2;
    assert [x1, x2][1..] == [x2] && [y1, y2][1..] == [y2];
    assert LexLess([x1, x2], [y1, y2]) <==> x1 < y1 || (x1 == y1 && x2 < y2);
    assert [x0, x1, x2][1..] == [x1, x2] && [y0, y1, y2][1..] == [y1, y2];
  }

  /** Swapping the arguments negates the comparison. */
  lemma CompareAntisymmetric(a: Version, b: Version)
    ensures Compare(b, a) == -Compare(a, b)
  {
  }

  lemma CompareTransitive(a: Version, b: Version, c: Version)
    requires Compare(a, b) <= 0 && Compare(b, c) <= 0
    ensures Compare(a, c) <= 0
  {
  }

  // ---------------------------------------------------------------------
  // Constraints

  /** Whether version `v` meets constraint `c`. */
  predicate Satisfies(v: Version, c: Constraint) {
    var k := Compare(v, c.version);
    match c.op
    case Equal => k == 0
    case NotEqual => k != 0
    case Greater => k > 0
    case Less => k < 0
    case GreaterEqual => k >= 0
    case LessEqual => k <= 0
  }

  function OpText(op: Op): string {
    match op
    case Equal => "="
    case NotEqual => "!="
    case Greater => ">"
    case Less => "<"
    case GreaterEqual => ">="
    case LessEqual => "<="
  }

  /** The operator at the start of `s` and its length; the two-character
      operators are tried first, and no operator means `=`. */
  function ParseOp(s: string): (r: (Op, nat))
    ensures r.1 <= |s|
    ensures r.1 > 0 ==> HasPrefix(s, OpText(r.0)) && r.1 == |OpText(r.0)|
  {
    if HasPrefix(s, ">=") then (GreaterEqual, 2)
    else if HasPrefix(s, "<=") then (LessEqual, 2)
    else if HasPrefix(s, "!=") then (NotEqual, 2)
    else if HasPrefix(s, ">") then (Greater, 1)
    else if HasPrefix(s, "<") then (Less, 1)
    else if HasPrefix(s, "=") then (Equal, 1)
    else (Equal, 0)
  }

  /** `s` without its leading spaces. */
  function TrimLeft(s: string): (r: string)
    ensures |r| <= |s| && r == s[|s| - |r|..]
    ensures |r| == 0 || r[0] != ' '
    decreases |s|
  {
    if |s| > 0 && s[0] == ' ' then TrimLeft(s[1..]) else s
  }

  /** `s` without its trailing spaces. */
  function TrimRight(s: string): (r: string)
    ensures |r| <= |s| && r == s[..|r|]
    ensures |r| == 0 || r[|r| - 1] != ' '
    decreases |s|
  {
    if |s| > 0 && s[|s| - 1] == ' ' then TrimRight(s[..|s| - 1]) else s
  }

  /** `version.NewConstraint` for a single constraint: optional spaces, an
      optional operator, optional spaces, a version token, optional
      spaces, and nothing else. */
  function ParseConstraint(s: string): (r: Result<Constraint, VersionError>)
    ensures r.Failure? ==> r.error == MalformedConstraint(s)
    ensures r.Success? ==> ScanVersion(r.value.version.original) == Some(VersionScan(r.value.version, ""))
  {
    var t := TrimLeft(s);
    var (op, n) := ParseOp(t);
    var rest := TrimRight(TrimLeft(t[n..]));
    match ScanVersion(rest)
    case Some(v) =>
      if v.rest == "" then
        ScanVersionWhole(rest);
        Success(Constraint(op, v.version))
      else Failure(MalformedConstraint(s))
    case None => Failure(MalformedConstraint(s))
  }

  lemma TrimLeftNoSpace(s: string)
    requires |s| == 0 || s[0] != ' '
    ensures TrimLeft(s) == s
  {
  }

  lemma TrimRightNoSpace(s: string)
    requires |s| == 0 || s[|s| - 1] != ' '
    ensures TrimRight(s) == s
  {
  }

  /** A constraint written as an operator, a space and a version text reads
      back as that operator and version. */
  lemma ConstraintRoundTrip(op: Op, withV: bool, major: nat, minor: nat, patch: nat)
    ensures var t := VersionText(withV, major, minor, patch);
            ParseConstraint(OpText(op) + " " + t) == Success(Constraint(op, Version(major, minor, patch, t)))
  {
    var t := VersionText(withV, major, minor, patch);
    VersionTextUntrimmed(withV, major, minor, patch);
    OperatorAndOperand(op, t);
    ScanVersionText(withV, major, minor, patch, "");
    assert t + "" == t;
    ParseConstraintSteps(OpText(op) + " " + t, op, |OpText(op)|, Version(major, minor, patch, t));
  }

  /** In `op t`, with `t` not trimmable, the operator is `op` and the
      operand is `t`. */
  lemma OperatorAndOperand(op: Op, t: string)
    requires |t| > 0 && t[0] != ' ' && t[|t| - 1] != ' '
    ensures var s := OpText(op) + " " + t;
            && ParseOp(TrimLeft(s)) == (op, |OpText(op)|)
            && TrimRight(TrimLeft(TrimLeft(s)[|OpText(op)|..])) == t
  {
    var s := OpText(op) + " " + t;
    assert s[0] == OpText(op)[0] != ' ';
    TrimLeftNoSpace(s);
    OperatorThenSpace(op, t);
    TrimLeftOneSpace(t);
    TrimRightNoSpace(t);
  }

  /** One leading space is trimmed, and nothing after it. */
  lemma TrimLeftOneSpace(t: string)
    requires |t| == 0 || t[0] != ' '
    ensures TrimLeft(" " + t) == t
  {
    assert (" " + t)[1..] == t;
    TrimLeftNoSpace(t);
  }

  /** A version text neither starts nor ends with a space. */
  lemma VersionTextUntrimmed(withV: bool, major: nat, minor: nat, patch: nat)
    ensures var t := VersionText(withV, major, minor, patch);
            |t| > 0 && t[0] != ' ' && t[|t| - 1] != ' '
  {
    var t := VersionText(withV, major, minor, patch);
    var a, c := NatToString(major), NatToString(patch);
    assert t[0] == 'v' || t[0] == a[0] by {
      if !withV {
        assert t[0] == a[0];
      }
    }
    assert t[|t| - 1] == c[|c| - 1];
  }

  /** An operator followed by a space reads as that operator. */
  lemma OperatorThenSpace(op: Op, t: string)
    ensures var s := OpText(op) + " " + t;
            && ParseOp(s) == (op, |OpText(op)|)
            && s[|OpText(op)|..] == " " + t
  {
    var s := OpText(op) + " " + t;
    assert s[|OpText(op)|] == ' ';
    assert s[..|OpText(op)|] == OpText(op);
    assert s[|OpText(op)|..] == " " + t;
  }

  /** `ParseConstraint` is its steps: trim, operator, trim, token. */
  lemma ParseConstraintSteps(s: string, op: Op, n: nat, v: Version)
    requires ParseOp(TrimLeft(s)) == (op, n)
    requires ScanVersion(TrimRight(TrimLeft(TrimLeft(s)[n..]))) == Some(VersionScan(v, ""))
    ensures ParseConstraint(s) == Success(Constraint(op, v))
  {
  }

  /** `checkTerraformVersionMeetsConstraint`: nil when the constraint reads
      and the version meets it; otherwise the constraint's syntax error, or
      an error naming the version and the constraint it fails. */
  function CheckTerraformVersionMeetsConstraint(current: Version, constraint: string): (r: Outcome<VersionError>)
    ensures r.Pass? <==> ParseConstraint(constraint).Success? && Satisfies(current, ParseConstraint(constraint).value)
    ensures r.Fail? && ParseConstraint(constraint).Failure? ==> r.error == MalformedConstraint(constraint)
    ensures r.Fail? && ParseConstraint(constraint).Success? ==>
              r.error == InvalidTerraformVersion(current, ParseConstraint(constraint).value)
  {
    match ParseConstraint(constraint)
    case Failure(e) => Fail(e)
    case Success(c) => if Satisfies(current, c) then Pass else Fail(InvalidTerraformVersion(current, c))
  }

  /** Against `>= X.Y.Z` the check passes exactly when the version's
      components are not lexicographically below (X, Y, Z). */
  lemma CheckAtLeast(current: Version, withV: bool, major: nat, minor: nat, patch: nat)
    ensures var s := OpText(GreaterEqual) + " " + VersionText(withV, major, minor, patch);
            CheckTerraformVersionMeetsConstraint(current, s).Pass? <==> !LexLess(Components(current), [major, minor, patch])
  {
    var t := VersionText(withV, major, minor, patch);
    ConstraintRoundTrip(GreaterEqual, withV, major, minor, patch);
    CheckAgainst(current, OpText(GreaterEqual) + " " + t, Version(major, minor, patch, t));
  }

  /** Against a constraint that reads as `>= w`, the check passes exactly
      when the version's components are not lexicographically below w's. */
  lemma CheckAgainst(current: Version, s: string, w: Version)
    requires ParseConstraint(s) == Success(Constraint(GreaterEqual, w))
    ensures CheckTerraformVersionMeetsConstraint(current, s).Pass?
            <==> !LexLess(Components(current), [w.major, w.minor, w.patch])
  {
    CheckPassesIffSatisfied(current, s, Constraint(GreaterEqual, w));
    AtLeastIsLexicographic(current, w);
  }

  /** Once the constraint reads, the check passes exactly when the version
      satisfies it. */
  lemma CheckPassesIffSatisfied(current: Version, s: string, c: Constraint)
    requires ParseConstraint(s) == Success(c)
    ensures CheckTerraformVersionMeetsConstraint(current, s).Pass? <==> Satisfies(current, c)
    ensures CheckTerraformVersionMeetsConstraint(current, s).Fail? ==>
              CheckTerraformVersionMeetsConstraint(current, s).error == InvalidTerraformVersion(current, c)
  {
  }

  /** `>= w` holds exactly when the components are not below w's. */
  lemma AtLeastIsLexicographic(current: Version, w: Version)
    ensures Satisfies(current, Constraint(GreaterEqual, w))
            <==> !LexLess(Components(current), [w.major, w.minor, w.patch])
  {
    CompareIsLexicographic(current, w);
  }

  /** A version that meets `>= w` is met by every later version too. */
  lemma AtLeastUpwardClosed(v: Version, u: Version, w: Version)
    requires Satisfies(v, Constraint(GreaterEqual, w)) && Compare(v, u) <= 0
    ensures Satisfies(u, Constraint(GreaterEqual, w))
  {
    CompareAntisymmetric(v, w);
    CompareTransitive(w, v, u);
  }

  /** The constraint test cases: `>= v0.9.3` is met by 0.9.3, 0.9.4 and
      1.0.0, and not by 0.9.2 or 0.8.8. */
  lemma CheckTestConstraints()
    ensures CheckTerraformVersionMeetsConstraint(Version(0, 9, 3, "v0.9.3"), ">= v0.9.3").Pass?
    ensures CheckTerraformVersionMeetsConstraint(Version(0, 9, 4, "v0.9.4"), ">= v0.9.3").Pass?
    ensures CheckTerraformVersionMeetsConstraint(Version(1, 0, 0, "v1.0.0"), ">= v0.9.3").Pass?
    ensures CheckTerraformVersionMeetsConstraint(Version(0, 9, 2, "v0.9.2"), ">= v0.9.3").Fail?
    ensures CheckTerraformVersionMeetsConstraint(Version(0, 8, 8, "v0.8.8"), ">= v0.9.3").Fail?
  {
    assert VersionText(true, 0, 9, 3) == "v0.9.3";
    assert OpText(GreaterEqual) + " " + VersionText(true, 0, 9, 3) == ">= v0.9.3";
    CheckAtLeast(Version(0, 9, 3, "v0.9.3"), true, 0, 9, 3);
    CheckAtLeast(Version(0, 9, 4, "v0.9.4"), true, 0, 9, 3);
    CheckAtLeast(Version(1, 0, 0, "v1.0.0"), true, 0, 9, 3);
    CheckAtLeast(Version(0, 9, 2, "v0.9.2"), true, 0, 9, 3);
    CheckAtLeast(Version(0, 8, 8, "v0.8.8"), true, 0, 9, 3);
  }
}

=== FILE: wrappers.dfy ===
/** Failure-carrying result types shared by the whole model. They stand for
    Go's `(value, error)` returns and for a bare `error` return. */
module Wrappers {

  /** A value that may be missing. */
  datatype Option<+T> = None | Some(value: T)

  /** Either a value or the error that prevented computing it. */
  datatype Result<+T, +E> = Success(value: T) | Failure(error: E)

  /** A Go function that returns only `error`: `Pass` is a nil error. */
  datatype Outcome<+E> = Pass | Fail(error: E)
}
